=== FILE: README.md ===
# MarketBeat analyst ratings, modelled in Dafny

`marketbeat/marketbeat.py` scrapes MarketBeat analyst ratings into pandas
data frames. It has two entry points:

- `getDailyRatingsTable` reads today's ratings of all symbols from the
  ratings page;
- `getSymbolRatingsTable` reads the rating history of one symbol.

Both follow the same pipeline:

1. `readTable` locates a table on the parsed page and decomposes its
   advertisement rows (class `bottom-sort`) in place. It then collects the
   header cells and the data cells of each body row, and reports the rows
   whose length differs from the number of headers.
2. A `processRow` closure turns each row into a rating dictionary with the
   six `parse*Tag` functions. A row that raises anything is skipped.
3. `buildDataFrame` turns the dictionaries into a frame. It drops
   `brokerage_code` and puts in front a `uid` column: date, symbol and
   brokerage joined by `_`.

The model works on a page that is already parsed. A page is a sequence of
the elements the code looks at, in document order: `<h2>` headings, `<div>`s
and tables of `<tr>` rows. Each cell carries the attributes the parsers read.
Every Python exception the code can raise is a `Result` error naming the
exception (AttributeError, IndexError, TypeError, ValueError, KeyError).

| file | module | models |
|---|---|---|
| results.dfy | Results | `Option`, and `Result` with the raised exception as its error |
| text.dfy | Text | `str.strip`, `str.split(sep)`, `replace(c, '')`, substring search |
| numbers.dfy | Numbers | `int(s)`, and `float(s)` on decimal literals, read as exact reals |
| dates.dfy | Dates | `strptime(s, '%m/%d/%Y')`, `strftime('%Y-%m-%d')`, the search for `\((\d{1,2}/\d{1,2}/\d{4})\)` |
| cells.dfy | Cells | `parseSymbolTag`, `parseBrokerageTag`, `parseAnalystTag`, `parsePriceTargetTag`, `parseRatingTag`, `parseDateTag` |
| tables.dfy | Tables | `readTable`, with the page as a class whose elements `ReadTable` updates |
| dataset.dfy | Dataset | `buildDataFrame`: `pd.DataFrame(list of dicts)`, the drop, the uid column |
| rows.dfy | Rows | both `processRow` closures, and the try/except loops that keep the rows that parse |
| workflows.dfy | Workflows | the page date, the exchange from the ratings link, both entry points |

Each method is proved against a function that specifies it:

- `ReadTable` against `ReadResult` and `AfterRead`;
- `KeepParsed` against `Survivors`;
- `DailyRatings` against `DailyResult`;
- `SymbolRatings` against `SymbolResult`.

Lemmas then state what those functions promise.

Behaviour of the code that the model keeps, because the code behaves this way:

- A page on which no row parses gives no empty frame. It gives a KeyError:
  `pd.DataFrame([])` has no `date` column to select.
- Building a frame again from the rows of a built frame fails with
  ValueError, because the `uid` column exists already.
- With a hint, `readTable` matches headings with the pattern `.*hint.*`,
  which is case-sensitive.
- On the daily page, a parenthesised date that does not exist (a month 13)
  is a ValueError for the whole page. It does not fall back to today.

## Model

| member | source | states |
|---|---|---|
| Text.Strip | marketbeat/marketbeat.py:124 | `str.strip()`: the result starts and ends with no whitespace and is no longer than the input; it is empty exactly when the input is all whitespace |
| Text.StripOf | marketbeat/marketbeat.py:79 | `strip` removes exactly the whitespace around a text that itself starts and ends with no whitespace |
| Text.StripIdempotent | marketbeat/marketbeat.py:105 | stripping twice is stripping once |
| Text.Split | marketbeat/marketbeat.py:79 | `str.split(sep)` gives at least one piece |
| Text.JoinSplit | marketbeat/marketbeat.py:79 | joining the pieces of a split with the separator gives back the text |
| Text.SplitPieces | marketbeat/marketbeat.py:79 | no piece of a split holds the separator |
| Text.SplitCount | marketbeat/marketbeat.py:79 | a split has one piece more than the text has separators |
| Text.SplitThird | marketbeat/marketbeat.py:79 | in "/area/exchange/…", piece 2 of the split on '/' is the exchange |
| Text.LastPieceIs | marketbeat/marketbeat.py:114 | the last piece of a split on the arrow is what follows the last arrow |
| Text.RemoveChar | marketbeat/marketbeat.py:115 | `replace(c, '')` leaves no `c`, and its length drops by the number of `c`s |
| Text.RemoveCharAppend | marketbeat/marketbeat.py:115 | removing a character distributes over concatenation |
| Text.Contains | marketbeat/marketbeat.py:37 | containment holds exactly when the pattern occurs at some position |
| Text.RemoveAll | marketbeat/marketbeat.py:93 | `replace(pat, '')` never lengthens the text |
| Text.RemoveAllAbsent | marketbeat/marketbeat.py:93 | a text without the pattern is left unchanged |
| Text.RemoveAllTrailing | marketbeat/marketbeat.py:93 | a text without the pattern, followed by one pattern that has no border (as "-stock-recommendations"), loses exactly that pattern |
| Numbers.ParseInt | marketbeat/marketbeat.py:125 | `int()` of an empty or all-whitespace text is a ValueError, and every refusal is a ValueError |
| Numbers.ParseIntAccepts | marketbeat/marketbeat.py:125 | `int(s)` gives `v` exactly when the trimmed text is digits, optionally behind '+' or '-', spelling `v`; every other text is refused |
| Numbers.ParseIntText | marketbeat/marketbeat.py:125 | `int(str(n)) == n` for every integer, negative ones included |
| Numbers.DigitsValueAppend | marketbeat/marketbeat.py:115 | the value of concatenated digit strings is the first value shifted by the second's length, plus the second value |
| Numbers.ParseUnsignedDecimal | marketbeat/marketbeat.py:115 | an empty literal is a ValueError, every refusal is a ValueError, and a literal that parses is never negative |
| Numbers.UnsignedAccepts | marketbeat/marketbeat.py:115 | an unsigned text parses to `m` exactly when it is digits, or digits with one point and a digit on at least one side, whose whole part plus fraction is `m` |
| Numbers.ScaledSplit | marketbeat/marketbeat.py:115 | the digits around the point read as one integer and scaled are the whole part plus the fraction |
| Numbers.ParseDecimal | marketbeat/marketbeat.py:115 | `float()` of an empty or all-whitespace text is a ValueError, and every refusal is a ValueError |
| Numbers.ParseDecimalAccepts | marketbeat/marketbeat.py:115 | `float(s)` gives `v` exactly when the trimmed text is an unsigned literal, optionally behind '+' or '-', denoting `v`; every other text is refused |
| Numbers.LiteralChars | marketbeat/marketbeat.py:115 | a text `float` accepts holds only digits, a point and a sign |
| Numbers.ParseDecimalText | marketbeat/marketbeat.py:115 | `float` reads back exactly n / 10^k from the literal with k decimals |
| Numbers.ParseNegativeText | marketbeat/marketbeat.py:115 | `float` reads "-" and that literal as -(n / 10^k) |
| Numbers.DigitsUnique | marketbeat/marketbeat.py:134 | two digit strings of one length with one value are the same string |
| Dates.ParseUSDate | marketbeat/marketbeat.py:134 | `strptime('%m/%d/%Y')` yields only calendar-valid dates, and fails only with ValueError |
| Dates.IsoText | marketbeat/marketbeat.py:134 | `strftime('%Y-%m-%d')` is ten characters: four year digits, '-', two month digits, '-', two day digits, each with the field's value |
| Dates.IsoTextInjective | marketbeat/marketbeat.py:134 | different dates are written differently |
| Dates.ParseUsText | marketbeat/marketbeat.py:134 | every valid date, written with its month and day padded or not, parses back to itself |
| Dates.ParseUsSpaced | marketbeat/marketbeat.py:134 | a valid date with its day written as a space and one digit parses back to itself |
| Dates.ParsedIsUsText | marketbeat/marketbeat.py:134 | whatever `strptime` accepts is a spelling of the date it returns: month of one or two digits, day of one or two digits or a space and a digit, four-digit year, nothing else |
| Dates.FieldSpelled | marketbeat/marketbeat.py:134 | an accepted field of `w` digits is its value padded to `w` digits |
| Dates.UsTextShape | marketbeat/marketbeat.py:182 | every such spelling has the shape of the date pattern |
| Dates.DateGroupAtShape | marketbeat/marketbeat.py:182 | what the date pattern matches is a parenthesised text of 1–2, 1–2 and 4 digits separated by slashes |
| Dates.DateGroupAtOf | marketbeat/marketbeat.py:182 | conversely, every such parenthesised text is matched, whatever follows it |
| Dates.DateGroupAt | marketbeat/marketbeat.py:182 | the date pattern anchored at one position; its meaning is stated by `DateGroupAtShape` and `DateGroupAtOf` |
| Dates.FirstDateAt | marketbeat/marketbeat.py:186 | `re.search` finds the leftmost position where the pattern matches |
| Dates.SearchDate | marketbeat/marketbeat.py:186 | the group the search returns has the m/d/yyyy shape of the pattern |
| Dates.SearchDateFinds | marketbeat/marketbeat.py:186 | the search finds a date exactly when the pattern matches at some position |
| Dates.SearchDateAfter | marketbeat/marketbeat.py:186 | a date after text without '(' is the group the search returns |
| Cells.ParseSymbol | marketbeat/marketbeat.py:73-81 | succeeds exactly when ticker, link and title are present and the href has two slashes; missing ticker or link is an AttributeError; the symbol is the ticker and the company the title; the exchange is stripped |
| Cells.SymbolExchange | marketbeat/marketbeat.py:79 | for an href "/area/exchange/…" the exchange is the stripped second segment |
| Cells.SymbolExchangeExample | marketbeat/marketbeat.py:79 | "/stocks/NASDAQ/AAPL/" gives the exchange "NASDAQ" |
| Cells.SymbolExchangeShort | marketbeat/marketbeat.py:79 | for an href "/area/exchange" with nothing after the exchange, the exchange is the stripped last segment |
| Cells.IssuerCode | marketbeat/marketbeat.py:93 | `re.match('/ratings/by-issuer/([-\w]+)')`: the group is the longest non-empty run of `[-\w]` after the prefix, and there is none exactly when the prefix or the first run character is missing |
| Cells.ParseBrokerage | marketbeat/marketbeat.py:84-95 | succeeds exactly when the link, its href and the issuer match are present; no link is an AttributeError, no href a TypeError; the name is the link text; the code is no longer than the matched run |
| Cells.BrokerageSlug | marketbeat/marketbeat.py:93 | for ".../by-issuer/slug-stock-recommendations" the code is the slug |
| Cells.BrokerageNumeric | marketbeat/marketbeat.py:93 | for ".../by-issuer/34/…" the code is the digits |
| Cells.ParseAnalyst | marketbeat/marketbeat.py:104-105 | an analyst exactly when the cell has a link; the name is the stripped link text |
| Cells.AnalystOf | marketbeat/marketbeat.py:104-105 | a link text of whitespace, a name that starts and ends with no whitespace, and whitespace gives exactly that name |
| Cells.AfterArrow | marketbeat/marketbeat.py:114 | the last piece after splitting on the arrow holds no arrow |
| Cells.PriceText | marketbeat/marketbeat.py:114-115 | the text given to `float` is trimmed and holds no arrow, '$' or ',' |
| Cells.ParsePriceTarget | marketbeat/marketbeat.py:114-115 | a cell that is only whitespace, '$' and ',' after the arrow is a ValueError, and every refusal is a ValueError |
| Cells.PriceAccepts | marketbeat/marketbeat.py:114-115 | the target is `v` exactly when the cleaned text is a decimal literal denoting `v` |
| Cells.PriceNotNumber | marketbeat/marketbeat.py:114-115 | a character other than a digit, point or sign left after cleaning ("N/A") is a ValueError |
| Cells.PriceAfterArrow | marketbeat/marketbeat.py:114 | only the text after the last arrow counts |
| Cells.PriceOfTarget | marketbeat/marketbeat.py:114-115 | "<old> ➝ <spaces>$<literal><spaces>", with ',' anywhere in the literal, reads as the value n / 10^k of the literal |
| Cells.PriceOfPlainTarget | marketbeat/marketbeat.py:114-115 | the same without an old target and arrow in front |
| Cells.CleanTarget | marketbeat/marketbeat.py:114-115 | cleaning "<spaces>$<literal with commas><spaces>" leaves the literal |
| Cells.ParseRating | marketbeat/marketbeat.py:124-125 | the name is stripped; succeeds exactly when `data-sort-value` is absent or an integer; absent gives code -1; a blank attribute is a ValueError |
| Cells.RatingAfterArrow | marketbeat/marketbeat.py:124 | only the text after the last arrow is the rating name |
| Cells.RatingLabel | marketbeat/marketbeat.py:124 | a cell text without arrow that is whitespace, a label and whitespace gives exactly that label as the rating name |
| Cells.RatingCodeAccepts | marketbeat/marketbeat.py:125 | with the attribute present, the code is `v` exactly when the trimmed attribute is an integer literal spelling `v` |
| Cells.RatingAbsent | marketbeat/marketbeat.py:120-126 | a cell without rating gives ("", -1) |
| Cells.ParseDate | marketbeat/marketbeat.py:134 | succeeds exactly when `strptime` does, and gives a "YYYY-MM-DD" text |
| Cells.DateOfUsText | marketbeat/marketbeat.py:134 | a valid date written m/d/yyyy, with month and day padded or unpadded, becomes its ISO text (the space-padded day that `strptime` also accepts is `Dates.ParseUsSpaced`) |
| Cells.DateCellsAgree | marketbeat/marketbeat.py:134 | two cells give the same ISO date exactly when they denote the same date |
| Tables.FirstTable | marketbeat/marketbeat.py:35 | `find("table")`: the first table at or after a position, or none |
| Tables.FirstHeading | marketbeat/marketbeat.py:37 | `find("h2", string=…)`: the first heading whose text contains the hint |
| Tables.Locate | marketbeat/marketbeat.py:34-37 | the located element is a table: without a hint the first one, with a hint the first after the first matching heading; every miss is an AttributeError |
| Tables.IsHeadingWith | marketbeat/marketbeat.py:37 | a heading matches exactly when its string holds the hint at some position |
| Tables.LocateAfterHeading | marketbeat/marketbeat.py:37 | a table after a matching heading, with no match or table in between, is the one chosen |
| Tables.LocateCaseSensitive | marketbeat/marketbeat.py:37 | an example on one page: a heading holding "ratings history" while the hint is "Ratings History" is not matched, so the lookup is an AttributeError |
| Tables.IsAd | marketbeat/marketbeat.py:40 | the advertisement test: the row's classes include "bottom-sort" (a definition, used by the lemmas below) |
| Tables.NonAds | marketbeat/marketbeat.py:40-41 | the rows left after the advertisements are decomposed are never more than the rows |
| Tables.NonAdsHasNoAd | marketbeat/marketbeat.py:40-41 | no advertisement row survives |
| Tables.NonAdsKeepsRows | marketbeat/marketbeat.py:40-41 | every other row survives, and nothing else appears |
| Tables.NonAdsAppend | marketbeat/marketbeat.py:40-41 | removal keeps the page order |
| Tables.NonAdsIdempotent | marketbeat/marketbeat.py:40-41 | removing advertisements twice removes nothing more |
| Tables.DropAdRows | marketbeat/marketbeat.py:40-41 | the loop keeps exactly the rows that are no advertisements |
| Tables.Clean | marketbeat/marketbeat.py:40-41 | cleaning keeps whether the table has a head and a body |
| Tables.HeadersAppend | marketbeat/marketbeat.py:46 | the header cells of two groups of head rows are the first group's then the second's |
| Tables.HeaderCells | marketbeat/marketbeat.py:46 | the loop collects the `<th>` cells of all head rows, in order |
| Tables.DataCells | marketbeat/marketbeat.py:47-49 | one entry per body row, holding its `<td>` cells |
| Tables.Mismatches | marketbeat/marketbeat.py:52-55 | the reported indices are exactly the rows whose length differs from the header count, in increasing order |
| Tables.MismatchedRows | marketbeat/marketbeat.py:52-55 | the loop reports exactly those indices |
| Tables.TableDataOf | marketbeat/marketbeat.py:44-58 | a result exactly when the table has head and body, else AttributeError; headers are those of the non-advertisement head rows; data are the cells of the non-advertisement body rows; mismatching rows are reported and kept |
| Tables.AfterRead | marketbeat/marketbeat.py:40-41 | reading changes no element but the located table, and keeps which elements are tables |
| Tables.Page.ReadTable | marketbeat/marketbeat.py:24-58 | returns what `ReadResult` specifies and leaves the page as `AfterRead` specifies |
| Tables.ReadResult | marketbeat/marketbeat.py:24-58 | every failure is an AttributeError; a page without a table fails when no hint is given; a result is the data of one of the page's tables |
| Tables.ReadRowsAreNonAds | marketbeat/marketbeat.py:40-49 | every data row returned is a non-advertisement body row of the located table |
| Tables.LocateSameShape | marketbeat/marketbeat.py:34-37 | pages with the same headings and tables in the same places locate the same table |
| Tables.ReadTwice | marketbeat/marketbeat.py:24-58 | reading a page again returns the same result and changes nothing more |
| Dataset.Lookup | marketbeat/marketbeat.py:66 | the value of the first field with the key, NaN when the record lacks it |
| Dataset.Show | marketbeat/marketbeat.py:68 | `astype(str)` writes an integer so that `int` reads it back |
| Dataset.Uid | marketbeat/marketbeat.py:68 | when none of date, symbol and brokerage, as written, holds '_', splitting the uid on '_' gives back the three texts |
| Dataset.UidCollision | marketbeat/marketbeat.py:68 | the join does not escape '_': records with date "a_b" and symbol "c", and with date "a" and symbol "b_c", differ yet share a uid |
| Dataset.AddKeys | marketbeat/marketbeat.py:66 | appends the missing keys, keeps the existing columns first, and keeps them distinct |
| Dataset.ColumnsOf | marketbeat/marketbeat.py:66 | `pd.DataFrame(records)` has each key of any record once as a column |
| Dataset.ColumnsOfUniform | marketbeat/marketbeat.py:66 | records that all have the same keys give those keys, in order |
| Dataset.Without | marketbeat/marketbeat.py:67 | the drop removes the column and keeps the others distinct |
| Dataset.WithoutBetween | marketbeat/marketbeat.py:67 | dropping a key that sits between two runs joins the runs |
| Dataset.RowOf | marketbeat/marketbeat.py:68-69 | a row holds the uid and each column's value |
| Dataset.BuildDataset | marketbeat/marketbeat.py:61-70 | an empty list is a KeyError; succeeds exactly when some records have date, symbol and brokerage and none has uid; a missing key column is a KeyError, an existing uid a ValueError; the columns and rows are as specified |
| Dataset.FrameColumns | marketbeat/marketbeat.py:66-69 | "uid" first, no "brokerage_code", and otherwise exactly the record keys |
| Dataset.FrameColumnsDistinct | marketbeat/marketbeat.py:66-69 | the built columns are distinct |
| Dataset.RowsOf | marketbeat/marketbeat.py:68-69 | one row per record, each with its uid and its value in every column |
| Dataset.RebuildRejected | marketbeat/marketbeat.py:69 | building again from a built frame's rows is a ValueError |
| Rows.Column | marketbeat/marketbeat.py:145-160 | `row[i]` is the cell, or an IndexError past the end |
| Rows.DailyRow | marketbeat/marketbeat.py:143-173 | succeeds exactly when the row has 7 cells and the symbol, brokerage, price and rating cells parse; the date is the page date; symbol and exchange come from cell 0, the action is cell 1 stripped, brokerage and code from cell 2, the analyst from cell 3, the price target from cell 5, rating and code from cell 6 |
| Rows.HistoryRow | marketbeat/marketbeat.py:204-235 | succeeds exactly when the row has 6 cells and the date, brokerage, rating and price cells parse; symbol and exchange are the page's; the date is ISO and comes from cell 0, brokerage and code from cell 1, the analyst from cell 2, the action is cell 3 stripped, rating and code from cell 4, the price target from cell 5 |
| Rows.DailyIgnoresColumn4 | marketbeat/marketbeat.py:143-173 | column 4 of a daily row is never read |
| Rows.DailyIgnoresExtra | marketbeat/marketbeat.py:143-173 | cells after the seventh change nothing |
| Rows.HistoryIgnoresExtra | marketbeat/marketbeat.py:204-235 | cells after the sixth change nothing |
| Rows.Fields | marketbeat/marketbeat.py:162-173 | the dictionary's keys are the ten keys, in literal order |
| Rows.FieldsLookup | marketbeat/marketbeat.py:162-173 | each of the ten keys is looked up as the rating's value: symbol, date, exchange, action, brokerage, brokerage code, rating and rating code as they are, the price target as a float, the analyst as text or None |
| Rows.Survivors | marketbeat/marketbeat.py:190-195 | never more ratings than rows |
| Rows.KeepParsed | marketbeat/marketbeat.py:190-195 | the try/except loop keeps exactly `Survivors` |
| Rows.SurvivorsAppend | marketbeat/marketbeat.py:190-195 | rows are processed independently and in order |
| Rows.DropFailing | marketbeat/marketbeat.py:192-195 | a row that raises is skipped as if absent |
| Rows.AllSucceed | marketbeat/marketbeat.py:190-195 | when every row parses, the result is the rows' ratings, in order |
| Rows.SurvivorsExactly | marketbeat/marketbeat.py:190-195 | every kept rating comes from some row, and every row that parses is kept |
| Rows.ShortRowsDropped | marketbeat/marketbeat.py:143-173 | a daily row of fewer than 7 cells is skipped |
| Rows.DailyShareDate | marketbeat/marketbeat.py:164 | every daily rating has the page date |
| Rows.HistoryShareSymbol | marketbeat/marketbeat.py:225-227 | every history rating has the requested symbol and the linked exchange |
| Rows.RatingRecords | marketbeat/marketbeat.py:193 | one dictionary per rating, in order |
| Rows.RatingsDataset | marketbeat/marketbeat.py:61-70 | no ratings is a KeyError; otherwise the frame has the nine rating columns after "uid", one row per rating, each uid "date_symbol_brokerage" |
| Rows.RatingsFrameFields | marketbeat/marketbeat.py:61-70 | each frame row holds its rating's date, symbol and exchange |
| Rows.RatingsFrameDetails | marketbeat/marketbeat.py:61-70 | each frame row also holds its rating's action, brokerage, analyst, price target, rating and rating code |
| Workflows.FirstDated | marketbeat/marketbeat.py:184 | `find("div", string=DATE_RE)`: the first division holding a date, or none |
| Workflows.HasDate | marketbeat/marketbeat.py:184 | the test `find("div", string=DATE_RE)` applies: a division whose string the date search succeeds on (a definition; its meaning is `HasDateMatches`) |
| Workflows.HasDateMatches | marketbeat/marketbeat.py:184 | a division is found exactly when the pattern matches at some position of its string |
| Workflows.PageDate | marketbeat/marketbeat.py:182-187 | today when no division holds a date; otherwise the ISO text of a valid date; a failure is a ValueError |
| Workflows.PageDateOf | marketbeat/marketbeat.py:182-187 | a division "… (m/d/yyyy) …", the first with a date, gives that date in ISO form |
| Workflows.PageDateNoSuchDay | marketbeat/marketbeat.py:187 | a well-shaped date that does not exist is a ValueError |
| Workflows.PageDateAfterRead | marketbeat/marketbeat.py:179-187 | on a page whose divisions lie outside its tables, reading the table first does not change the page date |
| Workflows.DailyParsed | marketbeat/marketbeat.py:190-195 | at most one rating per row, each of the page date; none when no row parses |
| Workflows.DailyResultOf | marketbeat/marketbeat.py:179-196 | with table and date known, the result is the frame of the rows that parse (the date taken on the page as given, which on a page whose divisions lie outside its tables is the date after the read) |
| Workflows.DailyResult | marketbeat/marketbeat.py:138-196 | a page without a table is an AttributeError; every failure is an AttributeError, ValueError or KeyError, never an IndexError or TypeError, since failing rows are skipped |
| Workflows.DailyRatings | marketbeat/marketbeat.py:138-196 | returns `DailyResult` and leaves the page with the table's advertisements removed |
| Workflows.DailyFrame | marketbeat/marketbeat.py:138-196 | a daily frame has the rating columns, between one row and one row per table row, each with the page date |
| Workflows.DailyNothingParsed | marketbeat/marketbeat.py:190-196 | a table none of whose rows parses gives a KeyError |
| Workflows.ExchangeOf | marketbeat/marketbeat.py:246 | `re.match('/stocks/(\w+)')`: the longest non-empty word after "/stocks/"; no href is a TypeError, no match an AttributeError |
| Workflows.ExchangeOfWord | marketbeat/marketbeat.py:246 | for "/stocks/WORD" followed by a non-word character the exchange is WORD |
| Workflows.HistoryParsed | marketbeat/marketbeat.py:253-258 | at most one rating per row, each of the symbol and exchange |
| Workflows.SymbolRatings | marketbeat/marketbeat.py:199-259 | returns `SymbolResult`; the page changes only when the link gives an exchange |
| Workflows.SymbolResult | marketbeat/marketbeat.py:199-259 | no ratings link is an AttributeError, a link without href a TypeError; every failure is an AttributeError, TypeError, ValueError or KeyError, never an IndexError |
| Workflows.SymbolFrame | marketbeat/marketbeat.py:199-259 | a history frame has the rating columns, between one row and one row per table row, each with the symbol and the exchange |

## Left out

- The network and HTML parsing (`requests.get`, BeautifulSoup): the model takes the parsed pages as values. A page is the sequence of headings, divisions and tables the code searches. Each cell keeps only what the parsers read: text, first link, ticker and title areas, and attributes.
- Rows outside `<thead>` and `<tbody>`, and tables nested in other elements, are not represented. `find_all("tr")` over the whole table is modelled as the head rows plus the body rows.
- The main page fetched at "/stocks/NASDAQ/{symbol}" is represented only by its analyst-ratings `<a>` (None when the `<li>` or the `<a>` is missing). The history page it links to is a parameter.
- Workflows.PageDateAfterRead and Workflows.FirstDated: divisions inside table cells (the ticker and title areas) and inside advertisement rows are not represented, so the date search sees only the top-level divisions of the page. In the code, `readTable` decomposes the advertisement rows before the search runs, so a dated division inside an advertisement row would be found by a search run before the read and not by one run after it. The model does not capture that order.
- The clock: `datetime.today()` is the `today` parameter of the daily workflow.
- `print` of mismatched rows: the indices are returned in `reported` instead.
- Cells.ParsePriceTarget: `float()` is modelled on decimal literals (sign, digits, at most one point) read as exact reals. Exponents, "inf", "nan", underscores, non-ASCII digits and binary rounding are not modelled.
- Numbers.ParseInt: underscores and non-ASCII digits, which Python's `int()` accepts, are not modelled.
- Dates.ParseUSDate and Dates.DateGroupAt: `\d` in the date pattern and in `strptime`'s `%m`, `%d` and `%Y` is the ASCII digits; the other Unicode decimal digits, which Python's `\d` and `int()` accept, are not modelled.
- Cells.IssuerCode and Workflows.ExchangeOf: `\w` is the ASCII word characters; Unicode letters and digits are not modelled.
- Tables.IsHeadingWith: the hint is matched as a literal substring. The only hint the code uses, "Ratings History", has no regex metacharacter.
- Dataset.Show: `float.__repr__` is not modelled; the float text is the `floatText` parameter.
- Pandas beyond what `buildDataFrame` uses: dtypes, the index, and NaN propagation other than the fill of a missing key.
- `main.py` (a command-line front end) is not part of this model.

=== FILE: cells.dfy ===
/** The table cells of a ratings page and the six parsers that read one
    field each out of a cell. A parser that would raise in Python returns
    `Err` with that exception instead. */
module Cells {
  import opened Results
  import opened Text
  import opened Numbers
  import opened Dates

  /** The arrow (U+279D) separating an old value from a new one, as in
      "$10.00 ➝ $12.50" or "Hold ➝ Buy". */
  const ARROW: char := '\U{279D}'

  /** Where brokerage links point: "/ratings/by-issuer/<code>...". */
  const BY_ISSUER: string := "/ratings/by-issuer/"

  /** The ending of a brokerage slug link, removed from the code. */
  const SUFFIX: string := "-stock-recommendations"

  /** The attribute holding the numeric rating code. */
  const SORT_VALUE: string := "data-sort-value"

  /** The first `<a>` inside a cell: its `href` attribute, if any, and its text. */
  datatype Link = Link(href: Option<string>, text: string)

  /** A table data cell: its whole text, its first link, the texts of its
      `ticker-area` and `title-area` divisions, and its attributes. */
  datatype Cell = Cell(
    text: string,
    link: Option<Link>,
    ticker: Option<string>,
    title: Option<string>,
    attrs: map<string, string>)

  // ---------------------------------------------------------------- symbol

  /** `parseSymbolTag`: (symbol, company, exchange). The exchange is the third
      '/'-separated piece of the link target, trimmed; a missing division or
      link is an AttributeError, a target with fewer than two '/' an
      IndexError. */
  function ParseSymbol(c: Cell): (r: Result<(string, string, string)>)
    ensures r.Ok? <==>
      && c.ticker.Some? && c.link.Some? && c.title.Some?
      && multiset(c.link.value.href.GetOr(""))['/'] >= 2
    ensures r.Ok? ==> r.value.0 == c.ticker.value && r.value.1 == c.title.value
    ensures r.Ok? ==> Trimmed(r.value.2) && |r.value.2| <= |c.link.value.href.GetOr("")|
    ensures c.ticker.None? || c.link.None? ==> r == Err(AttributeError)
  {
    if c.ticker.None? || c.link.None? then Err(AttributeError)
    else
      var href := c.link.value.href.GetOr("");
      var parts := Split(href, '/');
      SplitCount(href, '/');
      if |parts| < 3 then Err(IndexError)
      else if c.title.None? then Err(AttributeError)
      else
        PieceLength(href, '/', 2);
        Ok((c.ticker.value, c.title.value, Strip(parts[2])))
  }

  /** A piece of a split is no longer than the text split. */
  lemma PieceLength(s: string, sep: char, i: nat)
    requires i < |Split(s, sep)|
    ensures |Split(s, sep)[i]| <= |s|
  {
    JoinSplit(s, sep);
    JoinLength(Split(s, sep), sep, i);
  }

  lemma {:induction false} JoinLength(parts: seq<string>, sep: char, i: nat)
    requires i < |parts|
    ensures |parts[i]| <= |Join(parts, sep)|
    decreases |parts|
  {
    if |parts| > 1 && i > 0 {
      JoinLength(parts[1..], sep, i - 1);
    }
  }

  /** A stock link "/<area>/<exchange>/<rest>" yields the trimmed exchange,
      whatever follows it. */
  lemma SymbolExchange(c: Cell, area: string, exchange: string, rest: string)
    requires c.ticker.Some? && c.title.Some? && c.link.Some?
    requires c.link.value.href == Some("/" + area + "/" + exchange + "/" + rest)
    requires '/' !in area && '/' !in exchange
    ensures ParseSymbol(c) == Ok((c.ticker.value, c.title.value, Strip(exchange)))
  {
    SplitThird(c.link.value.href.value, area, exchange, rest, '/');
  }

  /** A link "/area/exchange" with nothing after the exchange also gives it. */
  lemma SymbolExchangeShort(c: Cell, area: string, exchange: string)
    requires c.ticker.Some? && c.title.Some? && c.link.Some?
    requires c.link.value.href == Some("/" + area + "/" + exchange)
    requires '/' !in area && '/' !in exchange
    ensures ParseSymbol(c) == Ok((c.ticker.value, c.title.value, Strip(exchange)))
  {
    var href := c.link.value.href.value;
    assert href == [] + ['/'] + (area + ['/'] + exchange);
    SplitAt([], '/', area + ['/'] + exchange);
    SplitAt(area, '/', exchange);
    SplitNone(exchange, '/');
    SplitCount(href, '/');
  }

  /** The example of the documentation: "/stocks/NASDAQ/AAPL/" is on NASDAQ. */
  lemma SymbolExchangeExample(c: Cell)
    requires c.ticker.Some? && c.title.Some?
    requires c.link == Some(Link(Some("/stocks/NASDAQ/AAPL/"), "AAPL"))
    ensures ParseSymbol(c).Ok? && ParseSymbol(c).value.2 == "NASDAQ"
  {
    var exchange := "NASDAQ";
    StripTrimmed(exchange);
    ExampleHref();
    SymbolExchange(c, "stocks", exchange, "AAPL/");
  }

  lemma ExampleHref()
    ensures "/" + "stocks" + "/" + "NASDAQ" + "/" + "AAPL/" == "/stocks/NASDAQ/AAPL/"
  {
    var h := "/" + "stocks" + "/" + "NASDAQ" + "/" + "AAPL/";
    forall i | 0 <= i < |h| ensures h[i] == "/stocks/NASDAQ/AAPL/"[i] {
    }
  }

  // ------------------------------------------------------------- brokerage

  /** `[-\w]`: the characters of a brokerage code (ASCII word characters and
      the hyphen). */
  predicate IsCodeChar(c: char) {
    c == '-' || c == '_' || IsDigit(c) || ('a' <= c <= 'z') || ('A' <= c <= 'Z')
  }

  predicate StartsWith(s: string, prefix: string) {
    |prefix| <= |s| && s[..|prefix|] == prefix
  }

  /** The code run of the regex `/ratings/by-issuer/([-\w]+)` matched at the
      start of `href`, if it matches. */
  function IssuerCode(href: string): (r: Option<string>)
    ensures r.Some? ==> StartsWith(href, BY_ISSUER + r.value)
    ensures r.Some? ==> r.value != [] && forall i :: 0 <= i < |r.value| ==> IsCodeChar(r.value[i])
    ensures r.Some? ==> |href| == |BY_ISSUER| + |r.value| || !IsCodeChar(href[|BY_ISSUER| + |r.value|])
    ensures r.None? <==> !StartsWith(href, BY_ISSUER) || |href| == |BY_ISSUER| || !IsCodeChar(href[|BY_ISSUER|])
  {
    if !StartsWith(href, BY_ISSUER) then None
    else
      var tail := href[|BY_ISSUER|..];
      var n := LeadingRun(tail, IsCodeChar);
      if n == 0 then None
      else
        assert href[..|BY_ISSUER| + n] == BY_ISSUER + tail[..n];
        Some(tail[..n])
  }

  /** `parseBrokerageTag`: (brokerage name, brokerage code). The name is the
      link text; the code is the matched run with every "-stock-recommendations"
      removed. No link is an AttributeError, a link without target a
      TypeError (the regex is applied to None), a target not matching the
      pattern an AttributeError. */
  function ParseBrokerage(c: Cell): (r: Result<(string, string)>)
    ensures r.Ok? <==> c.link.Some? && c.link.value.href.Some? && IssuerCode(c.link.value.href.value).Some?
    ensures c.link.None? ==> r == Err(AttributeError)
    ensures c.link.Some? && c.link.value.href.None? ==> r == Err(TypeError)
    ensures r.Ok? ==> r.value.0 == c.link.value.text
    ensures r.Ok? ==> |r.value.1| <= |IssuerCode(c.link.value.href.value).value|
  {
    if c.link.None? then Err(AttributeError)
    else
      match c.link.value.href
      case None => Err(TypeError)
      case Some(h) =>
        match IssuerCode(h)
        case None => Err(AttributeError)
        case Some(run) => Ok((c.link.value.text, RemoveAll(run, SUFFIX)))
  }

  /** The suffix has no proper prefix that is also a suffix of it, so two of
      its occurrences never overlap. */
  lemma SuffixNoBorder()
    ensures NoBorder(SUFFIX)
  {
    var p := SUFFIX;
    forall k | 0 < k < |p| ensures p[..k] != p[|p| - k..] {
      assert p[..k][0] == '-';
      if k == 16 {
        assert p[..k][1] != p[|p| - k..][1];
      } else {
        assert p[|p| - k..][0] == p[|p| - k];
        assert p[|p| - k] != '-';
      }
    }
  }

  /** A slug link "/ratings/by-issuer/<slug>-stock-recommendations" gives the
      slug as the code, whatever non-code text follows. */
  lemma BrokerageSlug(c: Cell, slug: string, rest: string)
    requires c.link.Some? && c.link.value.href == Some(BY_ISSUER + slug + SUFFIX + rest)
    requires forall i :: 0 <= i < |slug| ==> IsCodeChar(slug[i])
    requires !Contains(slug, SUFFIX)
    requires rest == [] || !IsCodeChar(rest[0])
    ensures ParseBrokerage(c) == Ok((c.link.value.text, slug))
  {
    var run := slug + SUFFIX;
    assert IssuerCode(c.link.value.href.value) == Some(run) by {
      Regroup(BY_ISSUER, slug, SUFFIX, rest);
      SuffixIsCode();
      CodeAppend(slug, SUFFIX, run);
      IssuerCodeOf(c.link.value.href.value, run, rest);
    }
    assert RemoveAll(run, SUFFIX) == slug by {
      SuffixNoBorder();
      RemoveAllTrailing(slug, SUFFIX);
    }
  }

  lemma Regroup(a: string, b: string, c: string, d: string)
    ensures a + b + c + d == a + (b + c) + d
  {
  }

  /** The regex takes exactly the code run that follows the prefix. */
  lemma IssuerCodeOf(h: string, run: string, rest: string)
    requires h == BY_ISSUER + run + rest && run != []
    requires forall i :: 0 <= i < |run| ==> IsCodeChar(run[i])
    requires rest == [] || !IsCodeChar(rest[0])
    ensures IssuerCode(h) == Some(run)
  {
    assert h[..|BY_ISSUER|] == BY_ISSUER;
    assert h[|BY_ISSUER|..] == run + rest;
    LeadingRunOf(run, rest, IsCodeChar);
    assert (run + rest)[..|run|] == run;
  }

  /** The suffix is made of code characters, so the regex run takes it in. */
  lemma SuffixIsCode()
    ensures forall i :: 0 <= i < |SUFFIX| ==> IsCodeChar(SUFFIX[i])
  {
  }

  lemma CodeAppend(a: string, b: string, ab: string)
    requires ab == a + b
    requires forall i :: 0 <= i < |a| ==> IsCodeChar(a[i])
    requires forall i :: 0 <= i < |b| ==> IsCodeChar(b[i])
    ensures forall i :: 0 <= i < |ab| ==> IsCodeChar(ab[i])
  {
    forall i | 0 <= i < |ab| ensures IsCodeChar(ab[i]) {
      if i >= |a| {
        assert ab[i] == b[i - |a|];
      }
    }
  }

  /** A numeric link "/ratings/by-issuer/<digits>/..." gives the digits. */
  lemma BrokerageNumeric(c: Cell, digits: string, rest: string)
    requires c.link.Some? && c.link.value.href == Some(BY_ISSUER + digits + "/" + rest)
    requires digits != [] && AllDigits(digits)
    ensures ParseBrokerage(c) == Ok((c.link.value.text, digits))
  {
    var h := BY_ISSUER + digits + "/" + rest;
    assert h == BY_ISSUER + digits + ("/" + rest);
    IssuerCodeOf(h, digits, "/" + rest);
    assert !Contains(digits, SUFFIX) by {
      if i :| OccursAt(digits, SUFFIX, i) {
        assert digits[i..i + |SUFFIX|][0] == '-';
      }
    }
    RemoveAllAbsent(digits, SUFFIX);
  }

  // --------------------------------------------------------------- analyst

  /** `parseAnalystTag`: the trimmed link text, or None when there is no link
      (never an error). */
  function ParseAnalyst(c: Cell): (r: Option<string>)
    ensures r.Some? <==> c.link.Some?
    ensures r.Some? ==> Trimmed(r.value) && |r.value| <= |c.link.value.text|
    ensures r.Some? && r.value == [] ==> AllSpace(c.link.value.text)
  {
    if c.link.Some? then Some(Strip(c.link.value.text)) else None
  }

  /** The analyst is the link text without the whitespace around it. */
  lemma AnalystOf(c: Cell, a: string, t: string, b: string)
    requires c.link.Some? && c.link.value.text == a + t + b
    requires AllSpace(a) && AllSpace(b) && Trimmed(t)
    ensures ParseAnalyst(c) == Some(t)
  {
    StripOf(a, t, b);
  }

  // ---------------------------------------------------------- price target

  /** The text after the last arrow, or the whole text when there is none. */
  function AfterArrow(text: string): (r: string)
    ensures ARROW !in r && |r| <= |text|
  {
    var parts := Split(text, ARROW);
    SplitPieces(text, ARROW);
    PieceLength(text, ARROW, |parts| - 1);
    Last(parts)
  }

  /** The text `parsePriceTargetTag` hands to `float`: the part after the
      last arrow with every '$' and ',' removed, trimmed. */
  function PriceText(text: string): (r: string)
    ensures Trimmed(r) && ARROW !in r && '$' !in r && ',' !in r
    ensures r == [] <==> AllSpace(RemoveChar(RemoveChar(AfterArrow(text), '$'), ','))
  {
    var cleaned := RemoveChar(RemoveChar(AfterArrow(text), '$'), ',');
    RemoveCharFrom(AfterArrow(text), '$');
    RemoveCharFrom(RemoveChar(AfterArrow(text), '$'), ',');
    StripKeeps(cleaned);
    Strip(cleaned)
  }

  /** `parsePriceTargetTag`: `float` of the cleaned text after the last arrow. */
  function ParsePriceTarget(c: Cell): (r: Result<real>)
    ensures AllSpace(RemoveChar(RemoveChar(AfterArrow(c.text), '$'), ',')) ==> r == Err(ValueError)
    ensures r.Err? ==> r.error == ValueError
  {
    ParseDecimal(PriceText(c.text))
  }

  /** The target is read exactly when the cleaned text is a decimal literal,
      and it is the number that literal denotes; anything else is refused. */
  lemma PriceAccepts(c: Cell, v: real)
    ensures ParsePriceTarget(c) == Ok(v) <==> DecimalLiteral(PriceText(c.text), v)
  {
    StripTrimmed(PriceText(c.text));
    ParseDecimalAccepts(PriceText(c.text), v);
  }

  /** A character other than a digit, a point or a sign left after cleaning
      ("N/A", "None") makes the target a ValueError. */
  lemma PriceNotNumber(c: Cell, i: nat)
    requires i < |PriceText(c.text)|
    requires var x := PriceText(c.text)[i]; !IsDigit(x) && x != '.' && x != '+' && x != '-'
    ensures ParsePriceTarget(c) == Err(ValueError)
  {
    if ParsePriceTarget(c).Ok? {
      PriceAccepts(c, ParsePriceTarget(c).value);
      LiteralChars(PriceText(c.text), ParsePriceTarget(c).value);
    }
  }

  /** Only the last arrow matters: the old target in front of it is ignored. */
  lemma PriceAfterArrow(c: Cell, before: string, now: string)
    requires c.text == before + [ARROW] + now && ARROW !in now
    ensures ParsePriceTarget(c) == ParsePriceTarget(c.(text := now))
  {
    LastPieceIs(before, ARROW, now);
    SplitNone(now, ARROW);
  }

  /** A target "<old> ➝ $<new>" as the page writes it: the spaces around the
      new target and thousands separators anywhere in its digits are
      dropped, and the value is the one its literal denotes. */
  lemma PriceOfTarget(c: Cell, before: string, now: string, a: string, t: string, b: string, n: nat, k: nat)
    requires c.text == before + [ARROW] + now && now == a + "$" + t + b
    requires AllSpace(a) && AllSpace(b) && RemoveChar(t, ',') == DecimalText(n, k)
    ensures ParsePriceTarget(c) == Ok(Scaled(n, k))
  {
    CleanTarget(now, a, t, b, n, k);
    PriceAfterArrow(c, before, now);
    var c' := c.(text := now);
    assert ParsePriceTarget(c') == ParseDecimal(DecimalText(n, k));
    ParseDecimalText(n, k);
  }

  /** The same target without an old one in front of it. */
  lemma PriceOfPlainTarget(c: Cell, a: string, t: string, b: string, n: nat, k: nat)
    requires c.text == a + "$" + t + b
    requires AllSpace(a) && AllSpace(b) && RemoveChar(t, ',') == DecimalText(n, k)
    ensures ParsePriceTarget(c) == Ok(Scaled(n, k))
  {
    CleanTarget(c.text, a, t, b, n, k);
    ParseDecimalText(n, k);
  }

  /** Cleaning "<spaces>$<literal with commas><spaces>" leaves the literal. */
  lemma CleanTarget(now: string, a: string, t: string, b: string, n: nat, k: nat)
    requires now == a + "$" + t + b
    requires AllSpace(a) && AllSpace(b) && RemoveChar(t, ',') == DecimalText(n, k)
    ensures ARROW !in now
    ensures PriceText(now) == DecimalText(n, k)
  {
    var d := DecimalText(n, k);
    DecimalTextChars(n, k);
    TargetChars(t, d);
    SpacesArePlain(a);
    SpacesArePlain(b);
    assert ARROW !in now;
    NoArrow(now);
    DollarRemoved(a, t, b);
    CommasRemoved(a, t, b);
    assert Trimmed(d) by {
      DigitNotSpace(d[0]);
      DigitNotSpace(d[|d| - 1]);
    }
    StripOf(a, d, b);
  }

  /** The characters of a literal with commas put back in. */
  lemma TargetChars(t: string, d: string)
    requires RemoveChar(t, ',') == d
    requires forall i :: 0 <= i < |d| ==> IsDigit(d[i]) || d[i] == '.'
    ensures '$' !in t && ARROW !in t
  {
    forall i | 0 <= i < |t| ensures t[i] == ',' || IsDigit(t[i]) || t[i] == '.' {
      if t[i] != ',' {
        RemoveCharKeeps(t, ',', i);
      }
    }
  }

  lemma DollarRemoved(a: string, t: string, b: string)
    requires '$' !in a && '$' !in t && '$' !in b
    ensures RemoveChar(a + "$" + t + b, '$') == a + t + b
  {
    var dollar: string := "$";
    assert RemoveChar(dollar, '$') == [] by {
      assert dollar[1..] == [];
    }
    RemoveCharAbsent(a, '$');
    RemoveCharAbsent(t, '$');
    RemoveCharAbsent(b, '$');
    RemoveCharAppend(a, dollar, '$');
    assert RemoveChar(a + dollar, '$') == a;
    RemoveCharAppend(a + dollar, t, '$');
    assert RemoveChar(a + dollar + t, '$') == a + t;
    RemoveCharAppend(a + dollar + t, b, '$');
  }

  lemma CommasRemoved(a: string, t: string, b: string)
    requires ',' !in a && ',' !in b
    ensures RemoveChar(a + t + b, ',') == a + RemoveChar(t, ',') + b
  {
    RemoveCharAppend(a + t, b, ',');
    RemoveCharAppend(a, t, ',');
    RemoveCharAbsent(a, ',');
    RemoveCharAbsent(b, ',');
  }

  /** Without an arrow the whole text is the last piece. */
  lemma NoArrow(text: string)
    requires ARROW !in text
    ensures AfterArrow(text) == text
  {
    SplitNone(text, ARROW);
  }

  lemma DigitNotSpace(x: char)
    requires IsDigit(x)
    ensures !IsSpace(x)
  {
  }

  /** Whitespace holds no arrow, '$' or ','. */
  lemma SpacesArePlain(a: string)
    requires AllSpace(a)
    ensures ARROW !in a && '$' !in a && ',' !in a
  {
    forall i | 0 <= i < |a| ensures a[i] != ARROW && a[i] != '$' && a[i] != ',' {
      assert IsSpace(a[i]);
    }
  }

  /** Trimming keeps no character the text did not have. */
  lemma StripKeeps(s: string)
    ensures forall x :: x in Strip(s) ==> x in s
  {
  }

  /** `parseRatingTag`: (label, code). The label is the trimmed text after the
      last arrow; the code is `int` of the `data-sort-value` attribute, "-1"
      when the attribute is absent, and a ValueError when it is no integer. */
  function ParseRating(c: Cell): (r: Result<(string, int)>)
    ensures r.Ok? ==> Trimmed(r.value.0) && |r.value.0| <= |c.text|
    ensures r.Ok? <==> SORT_VALUE !in c.attrs || ParseInt(c.attrs[SORT_VALUE]).Ok?
    ensures SORT_VALUE !in c.attrs ==> r.Ok? && r.value.1 == -1
    ensures SORT_VALUE in c.attrs && AllSpace(c.attrs[SORT_VALUE]) ==> r == Err(ValueError)
  {
    var name := Strip(AfterArrow(c.text));
    var raw := if SORT_VALUE in c.attrs then c.attrs[SORT_VALUE] else "-1";
    assert raw == "-1" ==> raw == IntText(-1);
    ParseIntText(-1);
    var code :- ParseInt(raw);
    Ok((name, code))
  }

  /** Only the text after the last arrow is the label. */
  lemma RatingAfterArrow(c: Cell, before: string, now: string)
    requires c.text == before + [ARROW] + now && ARROW !in now
    ensures ParseRating(c) == ParseRating(c.(text := now))
  {
    LastPieceIs(before, ARROW, now);
    SplitNone(now, ARROW);
  }

  /** With the attribute present, the code is read exactly when the trimmed
      attribute is an integer literal, and it is the number it denotes. */
  lemma RatingCodeAccepts(c: Cell, v: int)
    requires SORT_VALUE in c.attrs
    ensures (ParseRating(c).Ok? && ParseRating(c).value.1 == v) <==> IntLiteral(Strip(c.attrs[SORT_VALUE]), v)
  {
    ParseIntAccepts(c.attrs[SORT_VALUE], v);
  }

  /** The label is the text after the last arrow without the whitespace
      around it; with `RatingAfterArrow` this covers a cell with an arrow. */
  lemma RatingLabel(c: Cell, a: string, t: string, b: string)
    requires c.text == a + t + b && ARROW !in c.text
    requires AllSpace(a) && AllSpace(b) && Trimmed(t)
    ensures ParseRating(c).Ok? ==> ParseRating(c).value.0 == t
  {
    SplitNone(c.text, ARROW);
    StripOf(a, t, b);
  }

  /** A cell without a rating gives ("", -1). */
  lemma RatingAbsent(c: Cell)
    requires AllSpace(c.text) && SORT_VALUE !in c.attrs
    ensures ParseRating(c) == Ok(([], -1))
  {
    SplitNone(c.text, ARROW);
  }

  // ------------------------------------------------------------------ date

  /** `parseDateTag`: the m/d/yyyy cell text as yyyy-mm-dd; a ValueError when
      the text is not exactly such a date. */
  function ParseDate(c: Cell): (r: Result<string>)
    ensures r.Ok? <==> ParseUSDate(c.text).Ok?
    ensures r.Ok? ==> |r.value| == 10 && r.value[4] == '-' && r.value[7] == '-'
  {
    var d :- ParseUSDate(c.text);
    Ok(IsoText(d))
  }

  /** Every spelling of a valid date, zero-padded or not, becomes its ISO text. */
  lemma DateOfUsText(c: Cell, d: Date, mw: nat, dw: nat)
    requires Valid(d) && 1 <= mw <= 2 && 1 <= dw <= 2 && c.text == UsText(d, mw, dw)
    ensures ParseDate(c) == Ok(IsoText(d))
  {
    ParseUsText(d, mw, dw);
  }

  /** Different ISO texts come from different dates. */
  lemma DateCellsAgree(c1: Cell, c2: Cell)
    requires ParseDate(c1).Ok? && ParseDate(c2).Ok?
    ensures ParseDate(c1) == ParseDate(c2) <==> ParseUSDate(c1.text) == ParseUSDate(c2.text)
  {
    var d1, d2 := ParseUSDate(c1.text).value, ParseUSDate(c2.text).value;
    if IsoText(d1) == IsoText(d2) {
      IsoTextInjective(d1, d2);
    }
  }
}

=== FILE: dataset.dfy ===
/** `buildDataFrame`: the records become a table whose columns are the record
    keys in order of first appearance, without "brokerage_code", and with a
    "uid" column in front joining date, symbol and brokerage with '_'. */
module Dataset {
  import opened Results
  import opened Numbers
  import opened Text

  /** The values a record field holds: text, an integer, a float (read
      exactly), Python's None, and the NaN pandas fills a missing key with. */
  datatype Value = Str(s: string) | Int(i: int) | Real(x: real) | NoneValue | NaN

  /** A dictionary in insertion order. */
  type Record = seq<(string, Value)>

  /** A data frame: its column names and, per row, the value of each column. */
  datatype Frame = Frame(columns: seq<string>, rows: seq<map<string, Value>>)

  const UID: string := "uid"
  const DROPPED: string := "brokerage_code"
  const DATE: string := "date"
  const SYMBOL: string := "symbol"
  const BROKERAGE: string := "brokerage"

  predicate Distinct(xs: seq<string>) {
    forall i, j :: 0 <= i < j < |xs| ==> xs[i] != xs[j]
  }

  function Keys(r: Record): (ks: seq<string>)
    ensures |ks| == |r| && forall i :: 0 <= i < |r| ==> ks[i] == r[i].0
  {
    if r == [] then [] else [r[0].0] + Keys(r[1..])
  }

  /** The value of key `k`, NaN when the record has no such key. */
  function Lookup(r: Record, k: string): (v: Value)
    ensures k !in Keys(r) ==> v == NaN
    ensures forall i :: 0 <= i < |r| && r[i].0 == k && k !in Keys(r[..i]) ==> v == r[i].1
  {
    if r == [] then NaN
    else if r[0].0 == k then r[0].1
    else
      assert forall i :: 0 < i < |r| ==> r[1..][..i - 1] == r[..i][1..];
      Lookup(r[1..], k)
  }

  /** `cols` followed by the keys it lacks, in their order. */
  function AddKeys(cols: seq<string>, keys: seq<string>): (r: seq<string>)
    ensures forall k :: k in r <==> k in cols || k in keys
    ensures |r| >= |cols| && r[..|cols|] == cols
    ensures Distinct(cols) ==> Distinct(r)
    decreases |keys|
  {
    if keys == [] then cols
    else
      var next := if keys[0] in cols then cols else cols + [keys[0]];
      var r := AddKeys(next, keys[1..]);
      assert r[..|cols|] == r[..|next|][..|cols|];
      r
  }

  /** Some record has key `k`. */
  predicate HasKey(records: seq<Record>, k: string) {
    exists i :: 0 <= i < |records| && k in Keys(records[i])
  }

  /** The columns `pd.DataFrame` makes of a list of dictionaries: every key,
      once, in order of first appearance. */
  function ColumnsOf(records: seq<Record>): (cols: seq<string>)
    ensures Distinct(cols)
    ensures forall k :: k in cols <==> HasKey(records, k)
  {
    if records == [] then []
    else
      var init := records[..|records| - 1];
      var cols := AddKeys(ColumnsOf(init), Keys(records[|records| - 1]));
      HasKeyLast(records);
      cols
  }

  /** A key of some record is a key of an earlier record or of the last. */
  lemma HasKeyLast(records: seq<Record>)
    requires records != []
    ensures forall k :: HasKey(records, k) <==>
      HasKey(records[..|records| - 1], k) || k in Keys(records[|records| - 1])
  {
    var init := records[..|records| - 1];
    assert forall i :: 0 <= i < |init| ==> records[i] == init[i];
  }

  /** Records that all have the keys `ks`, in that order, give the columns `ks`. */
  lemma {:induction false} ColumnsOfUniform(records: seq<Record>, ks: seq<string>)
    requires records != [] && Distinct(ks)
    requires forall i :: 0 <= i < |records| ==> Keys(records[i]) == ks
    ensures ColumnsOf(records) == ks
  {
    var init := records[..|records| - 1];
    if init == [] {
      AddKeysNew([], ks);
    } else {
      ColumnsOfUniform(init, ks);
      AddKeysPresent(ks, ks);
    }
  }

  lemma {:induction false} AddKeysNew(cols: seq<string>, keys: seq<string>)
    requires Distinct(cols + keys)
    ensures AddKeys(cols, keys) == cols + keys
    decreases |keys|
  {
    if keys != [] {
      assert keys[0] == (cols + keys)[|cols|];
      assert keys[0] !in cols by {
        forall i | 0 <= i < |cols| ensures cols[i] != keys[0] {
          assert cols[i] == (cols + keys)[i];
        }
      }
      assert cols + keys == (cols + [keys[0]]) + keys[1..];
      AddKeysNew(cols + [keys[0]], keys[1..]);
    }
  }

  lemma {:induction false} AddKeysPresent(cols: seq<string>, keys: seq<string>)
    requires forall k :: k in keys ==> k in cols
    ensures AddKeys(cols, keys) == cols
    decreases |keys|
  {
    if keys != [] {
      assert keys[0] in keys;
      AddKeysPresent(cols, keys[1..]);
    }
  }

  /** `cols` without `k`. */
  function Without(cols: seq<string>, k: string): (r: seq<string>)
    ensures forall c :: c in r <==> c in cols && c != k
    ensures Distinct(cols) ==> Distinct(r)
  {
    if cols == [] then []
    else
      var rest := Without(cols[1..], k);
      if cols[0] == k then rest
      else
        assert Distinct(cols) ==> cols[0] !in cols[1..];
        [cols[0]] + rest
  }

  lemma {:induction false} WithoutAbsent(cols: seq<string>, k: string)
    requires k !in cols
    ensures Without(cols, k) == cols
  {
    if cols != [] {
      WithoutAbsent(cols[1..], k);
      assert [cols[0]] + cols[1..] == cols;
    }
  }

  /** Removing a key that sits between two runs without it joins the runs. */
  lemma {:induction false} WithoutBetween(a: seq<string>, k: string, b: seq<string>)
    requires k !in a && k !in b
    ensures Without(a + [k] + b, k) == a + b
  {
    if a == [] {
      assert a + [k] + b == [k] + b;
      assert ([k] + b)[1..] == b;
      WithoutAbsent(b, k);
    } else {
      var whole := a + [k] + b;
      assert whole[0] == a[0] && a[0] != k;
      assert whole[1..] == a[1..] + [k] + b;
      WithoutBetween(a[1..], k, b);
      assert Without(whole, k) == [a[0]] + Without(whole[1..], k);
      assert a + b == [a[0]] + (a[1..] + b);
    }
  }

  /** `str(v)`, as `astype(str)` writes a value; how a float is written
      (`float.__repr__`) is given as `floatText`. */
  function Show(v: Value, floatText: real -> string): (t: string)
    ensures v.Int? ==> ParseInt(t) == Ok(v.i)
  {
    match v
    case Str(s) => s
    case Int(i) => ParseIntText(i); IntText(i)
    case Real(x) => floatText(x)
    case NoneValue => "None"
    case NaN => "nan"
  }

  /** The uid of a record: date, symbol and brokerage joined by '_', unescaped. */
  function Uid(r: Record, floatText: real -> string): (u: string)
    ensures var d, s, b := Show(Lookup(r, DATE), floatText), Show(Lookup(r, SYMBOL), floatText), Show(Lookup(r, BROKERAGE), floatText);
      '_' !in d && '_' !in s && '_' !in b ==> Split(u, '_') == [d, s, b]
  {
    var d, s, b := Show(Lookup(r, DATE), floatText), Show(Lookup(r, SYMBOL), floatText), Show(Lookup(r, BROKERAGE), floatText);
    var u := d + "_" + s + "_" + b;
    if '_' !in d && '_' !in s && '_' !in b then SplitThree(u, d, s, b, '_'); u else u
  }

  /** The join does not escape '_': a date holding '_' and a symbol holding
      '_' can give two different records the same uid. */
  lemma UidCollision(a: string, b: string, c: string, d: string, floatText: real -> string)
    ensures var r1 := [(DATE, Str(a + "_" + b)), (SYMBOL, Str(c)), (BROKERAGE, Str(d))];
      var r2 := [(DATE, Str(a)), (SYMBOL, Str(b + "_" + c)), (BROKERAGE, Str(d))];
      Lookup(r1, DATE) != Lookup(r2, DATE) && Uid(r1, floatText) == Uid(r2, floatText)
  {
    LookupKeyColumns(Str(a + "_" + b), Str(c), Str(d));
    LookupKeyColumns(Str(a), Str(b + "_" + c), Str(d));
    assert |a + "_" + b| != |a|;
    assert (a + "_" + b) + "_" + c == a + "_" + (b + "_" + c);
  }

  /** A record of date, symbol and brokerage, in that order, looks each up. */
  lemma LookupKeyColumns(x: Value, y: Value, z: Value)
    ensures var r := [(DATE, x), (SYMBOL, y), (BROKERAGE, z)];
      Lookup(r, DATE) == x && Lookup(r, SYMBOL) == y && Lookup(r, BROKERAGE) == z
  {
    var r := [(DATE, x), (SYMBOL, y), (BROKERAGE, z)];
    assert Keys(r[..1]) == [DATE] && Keys(r[..2]) == [DATE, SYMBOL];
  }

  /** One row of the built frame. */
  function RowOf(r: Record, cols: seq<string>, floatText: real -> string): (row: map<string, Value>)
    ensures UID in row && row[UID] == Str(Uid(r, floatText))
    ensures forall k :: k in cols && k != UID ==> k in row && row[k] == Lookup(r, k)
    ensures forall k :: k in row ==> k == UID || k in cols
  {
    (map k | k in cols :: Lookup(r, k))[UID := Str(Uid(r, floatText))]
  }

  /** `buildDataFrame`. Selecting date, symbol and brokerage fails with
      KeyError when one is no column (always so for an empty list), and
      inserting "uid" fails with ValueError when it is a column already. */
  function BuildDataset(records: seq<Record>, floatText: real -> string): (r: Result<Frame>)
    ensures records == [] ==> r == Err(KeyError)
    ensures r.Ok? <==>
      HasKey(records, DATE) && HasKey(records, SYMBOL) && HasKey(records, BROKERAGE) && !HasKey(records, UID)
    ensures !(HasKey(records, DATE) && HasKey(records, SYMBOL) && HasKey(records, BROKERAGE)) ==> r == Err(KeyError)
    ensures HasKey(records, DATE) && HasKey(records, SYMBOL) && HasKey(records, BROKERAGE) && HasKey(records, UID) ==> r == Err(ValueError)
    ensures r.Err? ==> r.error == KeyError || r.error == ValueError
    ensures r.Ok? ==> r.value.columns == FrameColumns(records) && r.value.rows == RowsOf(records, r.value.columns, floatText)
  {
    var cols := Without(ColumnsOf(records), DROPPED);
    if !(DATE in cols && SYMBOL in cols && BROKERAGE in cols) then Err(KeyError)
    else if UID in cols then Err(ValueError)
    else Ok(Frame(FrameColumns(records), RowsOf(records, FrameColumns(records), floatText)))
  }

  /** The columns of the built frame: "uid", then the record keys in order of
      first appearance, without "brokerage_code". */
  function FrameColumns(records: seq<Record>): (cols: seq<string>)
    ensures |cols| >= 1 && cols[0] == UID && DROPPED !in cols
    ensures forall k :: k in cols <==> k == UID || (k != DROPPED && HasKey(records, k))
  {
    [UID] + Without(ColumnsOf(records), DROPPED)
  }

  /** Each key appears once among the columns, "uid" included, as long as no
      record has a "uid" key already. */
  lemma FrameColumnsDistinct(records: seq<Record>)
    requires !HasKey(records, UID)
    ensures Distinct(FrameColumns(records))
  {
    DistinctCons(UID, Without(ColumnsOf(records), DROPPED));
  }

  lemma DistinctCons(x: string, xs: seq<string>)
    requires x !in xs && Distinct(xs)
    ensures Distinct([x] + xs)
  {
    var ys := [x] + xs;
    forall a, b | 0 <= a < b < |ys| ensures ys[a] != ys[b] {
      assert ys[b] == xs[b - 1];
      if a > 0 {
        assert ys[a] == xs[a - 1];
      }
    }
  }

  /** One row per record, in order: its uid and its value in every column. */
  function RowsOf(records: seq<Record>, cols: seq<string>, floatText: real -> string): (rows: seq<map<string, Value>>)
    ensures |rows| == |records|
    ensures forall i :: 0 <= i < |records| ==> UID in rows[i] && rows[i][UID] == Str(Uid(records[i], floatText))
    ensures forall i, k :: 0 <= i < |records| && k in cols ==> k in rows[i]
    ensures forall i, k :: 0 <= i < |records| && k in cols && k != UID ==> rows[i][k] == Lookup(records[i], k)
  {
    seq(|records|, i requires 0 <= i < |records| => RowOf(records[i], cols, floatText))
  }

  /** A frame written back as records, one per row, in column order. */
  function FrameRecords(f: Frame): (rs: seq<Record>)
    requires forall i :: 0 <= i < |f.rows| ==> forall k :: k in f.columns ==> k in f.rows[i]
    ensures |rs| == |f.rows|
    ensures forall i :: 0 <= i < |rs| ==> Keys(rs[i]) == f.columns
  {
    seq(|f.rows|, i requires 0 <= i < |f.rows| => RecordOf(f.columns, f.rows[i]))
  }

  function RecordOf(cols: seq<string>, row: map<string, Value>): (r: Record)
    requires forall k :: k in cols ==> k in row
    ensures Keys(r) == cols
  {
    if cols == [] then [] else [(cols[0], row[cols[0]])] + RecordOf(cols[1..], row)
  }

  /** Building again from the rows of a built frame is refused: they carry a
      "uid" already, so `insert` raises ValueError. The build is not idempotent. */
  lemma RebuildRejected(records: seq<Record>, floatText: real -> string, f: Frame)
    requires BuildDataset(records, floatText) == Ok(f) && records != []
    ensures BuildDataset(FrameRecords(f), floatText) == Err(ValueError)
  {
    var again := FrameRecords(f);
    assert UID in Keys(again[0]);
    assert HasKey(again, UID);
    assert HasKey(again, DATE) && HasKey(again, SYMBOL) && HasKey(again, BROKERAGE) by {
      assert DATE in Keys(again[0]) && SYMBOL in Keys(again[0]) && BROKERAGE in Keys(again[0]);
    }
  }
}

=== FILE: dates.dfy ===
/** Calendar dates as the parsers read and write them: `strptime` with
    '%m/%d/%Y', `strftime` with '%Y-%m-%d', and the search for a
    parenthesised date on the daily page. */
module Dates {
  import opened Results
  import opened Text
  import opened Numbers

  datatype Date = Date(year: int, month: int, day: int)

  /** Gregorian leap years, as Python's `datetime` counts them. */
  predicate IsLeap(y: int) {
    y % 4 == 0 && (y % 100 != 0 || y % 400 == 0)
  }

  function DaysInMonth(y: int, m: int): int
    requires 1 <= m <= 12
  {
    if m == 2 then (if IsLeap(y) then 29 else 28)
    else if m == 4 || m == 6 || m == 9 || m == 11 then 30
    else 31
  }

  /** A date `datetime.date` accepts. */
  predicate Valid(d: Date) {
    && 1 <= d.year <= 9999
    && 1 <= d.month <= 12
    && 1 <= d.day <= DaysInMonth(d.year, d.month)
  }

  /** `%m`: one or two digits denoting a month 1..12 ("7", "07", "12"). */
  function MonthField(t: string): (r: Option<int>)
    ensures r.Some? ==> 1 <= r.value <= 12
  {
    if 1 <= |t| <= 2 && AllDigits(t) && 1 <= DigitsValue(t) <= 12 then Some(DigitsValue(t)) else None
  }

  /** `%d`: one or two digits denoting 1..31, or a space then a digit 1..9. */
  function DayField(t: string): (r: Option<int>)
    ensures r.Some? ==> 1 <= r.value <= 31
  {
    if 1 <= |t| <= 2 && AllDigits(t) && 1 <= DigitsValue(t) <= 31 then Some(DigitsValue(t))
    else if |t| == 2 && t[0] == ' ' && IsDigit(t[1]) && t[1] != '0' then Some(DigitValue(t[1]))
    else None
  }

  /** `%Y`: exactly four digits. */
  function YearField(t: string): Option<int> {
    if |t| == 4 && AllDigits(t) then Some(DigitsValue(t)) else None
  }

  /** `datetime.strptime(s, '%m/%d/%Y')`: the whole text must be month, day and
      year separated by '/', and the three must form a real calendar date;
      otherwise ValueError. */
  function ParseUSDate(s: string): (r: Result<Date>)
    ensures r.Ok? ==> Valid(r.value)
    ensures r.Err? ==> r.error == ValueError
  {
    var parts := Split(s, '/');
    if |parts| != 3 then Err(ValueError)
    else
      match (MonthField(parts[0]), DayField(parts[1]), YearField(parts[2]))
      case (Some(m), Some(d), Some(y)) =>
        var date := Date(y, m, d);
        if Valid(date) then Ok(date) else Err(ValueError)
      case _ => Err(ValueError)
  }

  /** `date.strftime('%Y-%m-%d')`: four-digit year, two-digit month and day. */
  function IsoText(d: Date): (r: string)
    requires Valid(d)
    ensures |r| == 10 && r[4] == '-' && r[7] == '-'
    ensures AllDigits(r[..4]) && AllDigits(r[5..7]) && AllDigits(r[8..])
    ensures DigitsValue(r[..4]) == d.year
    ensures DigitsValue(r[5..7]) == d.month
    ensures DigitsValue(r[8..]) == d.day
  {
    PadDigitsExact(d.year, 4);
    PadDigitsExact(d.month, 2);
    PadDigitsExact(d.day, 2);
    IsoLayout(PadDigits(d.year, 4), PadDigits(d.month, 2), PadDigits(d.day, 2));
    PadDigits(d.year, 4) + "-" + PadDigits(d.month, 2) + "-" + PadDigits(d.day, 2)
  }

  /** Where the fields sit in "yyyy-mm-dd". */
  lemma IsoLayout(y: string, m: string, d: string)
    requires |y| == 4 && |m| == 2 && |d| == 2
    ensures var r := y + "-" + m + "-" + d;
      |r| == 10 && r[4] == '-' && r[7] == '-' && r[..4] == y && r[5..7] == m && r[8..] == d
  {
  }

  /** Distinct dates have distinct ISO texts. */
  lemma IsoTextInjective(d1: Date, d2: Date)
    requires Valid(d1) && Valid(d2) && IsoText(d1) == IsoText(d2)
    ensures d1 == d2
  {
  }

  /** The month/day/year text of a date, month and day written with
      `mw` and `dw` digits (1: as short as possible, 2: zero-padded). */
  function UsText(d: Date, mw: nat, dw: nat): string
    requires Valid(d)
  {
    PadDigits(d.month, mw) + "/" + PadDigits(d.day, dw) + "/" + PadDigits(d.year, 4)
  }

  /** A field of one or two digits reads back as the number it spells. */
  lemma ShortField(n: nat, w: nat)
    requires 1 <= n < 100 && 1 <= w <= 2
    ensures 1 <= |PadDigits(n, w)| <= 2
  {
    PadDigitsExact(n, 2);
    if |NatDigits(n)| < 2 {
      assert |NatDigits(n)| == 1;
    }
  }

  /** `strptime` accepts every spelling of a valid date, padded or not. */
  lemma ParseUsText(d: Date, mw: nat, dw: nat)
    requires Valid(d) && 1 <= mw <= 2 && 1 <= dw <= 2
    ensures ParseUSDate(UsText(d, mw, dw)) == Ok(d)
  {
    var m, dd, y := PadDigits(d.month, mw), PadDigits(d.day, dw), PadDigits(d.year, 4);
    ShortField(d.month, mw);
    ShortField(d.day, dw);
    PadDigitsExact(d.year, 4);
    NoSlashInDigits(m);
    NoSlashInDigits(dd);
    NoSlashInDigits(y);
    SplitThree(UsText(d, mw, dw), m, dd, y, '/');
  }

  /** The month/day/year text with the day written as a space and one digit,
      the other form `%d` accepts. */
  function UsTextSpaced(d: Date, mw: nat): string
    requires Valid(d) && d.day < 10
  {
    PadDigits(d.month, mw) + "/ " + [Digit(d.day)] + "/" + PadDigits(d.year, 4)
  }

  /** `strptime` accepts the space-padded day as well. */
  lemma ParseUsSpaced(d: Date, mw: nat)
    requires Valid(d) && d.day < 10 && 1 <= mw <= 2
    ensures ParseUSDate(UsTextSpaced(d, mw)) == Ok(d)
  {
    var m, dd, y := PadDigits(d.month, mw), " " + [Digit(d.day)], PadDigits(d.year, 4);
    ShortField(d.month, mw);
    PadDigitsExact(d.year, 4);
    NoSlashInDigits(m);
    NoSlashInDigits(y);
    assert UsTextSpaced(d, mw) == m + "/" + dd + "/" + y;
    assert !AllDigits(dd) by {
      assert !IsDigit(dd[0]);
    }
    assert dd[1] == Digit(d.day) && dd[1] != '0';
    assert DayField(dd) == Some(d.day);
    assert '/' !in dd;
    SplitThree(UsTextSpaced(d, mw), m, dd, y, '/');
  }

  /** Conversely, whatever `strptime` accepts is a spelling of the date it
      returns: month of one or two digits, day of one or two digits or a
      space and a digit, four-digit year, and nothing else. */
  lemma ParsedIsUsText(s: string)
    requires ParseUSDate(s).Ok?
    ensures var d := ParseUSDate(s).value;
      exists mw, dw :: 1 <= mw <= 2 && 1 <= dw <= 2 &&
        (s == UsText(d, mw, dw) || (d.day < 10 && s == UsTextSpaced(d, mw)))
  {
    var d := ParseUSDate(s).value;
    var p := Split(s, '/');
    ThreePieces(s, p);
    var mw := |p[0]|;
    MonthSpelled(p[0], d.month);
    FieldSpelled(p[2], 4, d.year);
    DaySpelled(p[1], d.day);
    if d.day < 10 && p[1] == " " + [Digit(d.day)] {
      assert s == UsTextSpaced(d, mw);
      assert s == UsText(d, mw, 1) || s == UsTextSpaced(d, mw);
    } else {
      assert s == UsText(d, mw, |p[1]|);
    }
  }

  /** Three pieces joined back with '/' give the text. */
  lemma ThreePieces(s: string, p: seq<string>)
    requires p == Split(s, '/') && |p| == 3
    ensures s == p[0] + "/" + p[1] + "/" + p[2]
  {
    JoinSplit(s, '/');
    assert p[1..][1..] == [p[2]];
    assert Join(p[1..], '/') == p[1] + "/" + p[2];
    assert s == p[0] + "/" + (p[1] + "/" + p[2]);
  }

  /** An accepted month is its value written with as many digits as it has. */
  lemma MonthSpelled(t: string, m: int)
    requires MonthField(t) == Some(m)
    ensures 1 <= |t| <= 2 && t == PadDigits(m, |t|)
  {
    FieldSpelled(t, |t|, m);
  }

  /** An accepted day is its value in one or two digits, or a space and its
      one digit. */
  lemma DaySpelled(t: string, day: int)
    requires DayField(t) == Some(day)
    ensures (1 <= |t| <= 2 && t == PadDigits(day, |t|)) || (day < 10 && t == " " + [Digit(day)])
  {
    if 1 <= |t| <= 2 && AllDigits(t) && 1 <= DigitsValue(t) <= 31 {
      FieldSpelled(t, |t|, day);
    } else {
      assert t == " " + [Digit(day)];
    }
  }

  /** A field of `w` digits spelling `v` is `v` padded to `w` digits. */
  lemma FieldSpelled(t: string, w: nat, v: nat)
    requires AllDigits(t) && |t| == w && DigitsValue(t) == v
    requires (v < 100 && 1 <= w <= 2) || (v < 10000 && w == 4)
    ensures t == PadDigits(v, w)
  {
    if w == 1 {
      assert t == t[..0] + [t[0]];
    }
    PadDigitsExact(v, w);
    DigitsUnique(t, PadDigits(v, w));
  }

  /** Every such spelling has the shape the date pattern looks for. */
  lemma UsTextShape(d: Date, mw: nat, dw: nat)
    requires Valid(d) && 1 <= mw <= 2 && 1 <= dw <= 2
    ensures DateShape(UsText(d, mw, dw))
  {
    var m, dd, y := PadDigits(d.month, mw), PadDigits(d.day, dw), PadDigits(d.year, 4);
    ShortField(d.month, mw);
    ShortField(d.day, dw);
    PadDigitsExact(d.year, 4);
    NoSlashInDigits(m);
    NoSlashInDigits(dd);
    NoSlashInDigits(y);
    SplitThree(UsText(d, mw, dw), m, dd, y, '/');
  }

  lemma NoSlashInDigits(s: string)
    requires AllDigits(s)
    ensures '/' !in s
  {
  }

  /** Well-formed text of the pattern `\d{1,2}/\d{1,2}/\d{4}`. */
  predicate DateShape(g: string) {
    var p := Split(g, '/');
    && |p| == 3
    && 1 <= |p[0]| <= 2 && 1 <= |p[1]| <= 2 && |p[2]| == 4
    && AllDigits(p[0]) && AllDigits(p[1]) && AllDigits(p[2])
  }

  /** The regex `\((\d{1,2}/\d{1,2}/\d{4})\)` matched at the start of `s`:
      the group, if it matches there. */
  function DateGroupAt(s: string): Option<string> {
    if |s| == 0 || s[0] != '(' then None
    else
      var a := LeadingRun(s[1..], IsDigit);
      if a < 1 || a > 2 || 1 + a >= |s| || s[1 + a] != '/' then None
      else
        var b := LeadingRun(s[2 + a..], IsDigit);
        if b < 1 || b > 2 || 2 + a + b >= |s| || s[2 + a + b] != '/' then None
        else
          var c := LeadingRun(s[3 + a + b..], IsDigit);
          if c != 4 || 7 + a + b >= |s| || s[7 + a + b] != ')' then None
          else Some(s[1..7 + a + b])
  }

  /** What the matcher returns is a parenthesised, well-shaped date text. */
  lemma DateGroupAtShape(s: string)
    requires DateGroupAt(s).Some?
    ensures var g := DateGroupAt(s).value;
      |g| + 2 <= |s| && s[0] == '(' && s[1..|g| + 1] == g && s[|g| + 1] == ')' && DateShape(g)
  {
    var a := LeadingRun(s[1..], IsDigit);
    var b := LeadingRun(s[2 + a..], IsDigit);
    var g := s[1..7 + a + b];
    var m, d, y := s[1..1 + a], s[2 + a..2 + a + b], s[3 + a + b..7 + a + b];
    assert 1 <= a <= 2 && 1 <= b <= 2 && 7 + a + b < |s|;
    assert s[1 + a] == '/' && s[2 + a + b] == '/';
    assert AllDigits(m) by {
      forall i | 0 <= i < |m| ensures IsDigit(m[i]) { assert m[i] == s[1..][i]; }
    }
    assert AllDigits(d) by {
      forall i | 0 <= i < |d| ensures IsDigit(d[i]) { assert d[i] == s[2 + a..][i]; }
    }
    assert AllDigits(y) by {
      forall i | 0 <= i < |y| ensures IsDigit(y[i]) { assert y[i] == s[3 + a + b..][i]; }
    }
    NoSlashInDigits(m);
    NoSlashInDigits(d);
    NoSlashInDigits(y);
    assert g == m + "/" + d + "/" + y by {
      var h := m + "/" + d + "/" + y;
      forall i | 0 <= i < |g| ensures g[i] == h[i] {
        assert g[i] == s[1 + i];
        if i < a {
          assert h[i] == m[i];
        } else if a < i < a + 1 + b {
          assert h[i] == d[i - a - 1];
        } else if a + 1 + b < i {
          assert h[i] == y[i - a - b - 2];
        }
      }
    }
    SplitThree(g, m, d, y, '/');
  }

  /** Conversely, every well-shaped date in parentheses is matched, whatever
      follows the closing parenthesis. */
  lemma DateGroupAtOf(s: string, g: string, rest: string)
    requires DateShape(g) && s == "(" + g + ")" + rest
    ensures DateGroupAt(s) == Some(g)
  {
    var p := Split(g, '/');
    JoinSplit(g, '/');
    assert Join(p[1..], '/') == p[1] + "/" + p[2] by {
      assert p[1..][1..] == [p[2]];
    }
    var a, b := |p[0]|, |p[1]|;
    var tail := p[1] + "/" + p[2];
    assert g == p[0] + "/" + tail;
    forall i | 0 <= i < |g| && i != a && i != a + 1 + b
      ensures IsDigit(g[i])
    {
      if i < a {
        assert g[i] == p[0][i];
      } else {
        assert g[i] == tail[i - a - 1];
        if i < a + 1 + b {
          assert tail[i - a - 1] == p[1][i - a - 1];
        } else {
          assert tail[i - a - 1] == p[2][i - a - 2 - b];
        }
      }
    }
    assert g[a] == '/';
    assert g[a + 1 + b] == '/' by {
      assert g[a + 1 + b] == tail[b];
    }
    forall i | 0 <= i < |g| ensures s[1 + i] == g[i] {
    }
    DateGroupAtIndexed(s, g, a, b);
  }

  /** The matcher on a text whose characters after the '(' are those of `g`,
      with slashes at `a` and `a + 1 + b` of `g` and digits elsewhere. */
  lemma DateGroupAtIndexed(s: string, g: string, a: nat, b: nat)
    requires 1 <= a <= 2 && 1 <= b <= 2 && |g| == a + b + 6 && |g| + 1 < |s|
    requires s[0] == '(' && s[|g| + 1] == ')'
    requires g[a] == '/' && g[a + 1 + b] == '/'
    requires forall i :: 0 <= i < |g| ==> s[1 + i] == g[i]
    requires forall i :: 0 <= i < |g| && i != a && i != a + 1 + b ==> IsDigit(g[i])
    ensures DateGroupAt(s) == Some(g)
  {
    var u1, u2, u3 := s[1..], s[2 + a..], s[3 + a + b..];
    forall i | 0 <= i < a ensures IsDigit(u1[i]) {
      assert u1[i] == g[i];
    }
    assert u1[a] == g[a];
    RunOfDigits(u1, a);
    forall i | 0 <= i < b ensures IsDigit(u2[i]) {
      assert u2[i] == g[a + 1 + i];
    }
    assert u2[b] == g[a + 1 + b];
    RunOfDigits(u2, b);
    forall i | 0 <= i < 4 ensures IsDigit(u3[i]) {
      assert u3[i] == g[a + b + 2 + i];
    }
    assert u3[4] == ')';
    RunOfDigits(u3, 4);
    DateGroupAtRuns(s, a, b);
    assert s[1..7 + a + b] == g;
  }

  /** A run of `n` digits ends where the first non-digit is. */
  lemma RunOfDigits(u: string, n: nat)
    requires n < |u| && !IsDigit(u[n])
    requires forall i :: 0 <= i < n ==> IsDigit(u[i])
    ensures LeadingRun(u, IsDigit) == n
  {
  }

  /** The matcher once the three digit runs and their delimiters are known. */
  lemma DateGroupAtRuns(s: string, a: nat, b: nat)
    requires 1 <= a <= 2 && 1 <= b <= 2 && 7 + a + b < |s|
    requires s[0] == '(' && s[1 + a] == '/' && s[2 + a + b] == '/' && s[7 + a + b] == ')'
    requires LeadingRun(s[1..], IsDigit) == a
    requires LeadingRun(s[2 + a..], IsDigit) == b
    requires LeadingRun(s[3 + a + b..], IsDigit) == 4
    ensures DateGroupAt(s) == Some(s[1..7 + a + b])
  {
  }

  /** The date pattern matches at position `j` of `s`. */
  predicate MatchesAt(s: string, j: nat)
    requires j <= |s|
  {
    DateGroupAt(s[j..]).Some?
  }

  /** `re.search`: the leftmost position from `from` on where the date
      pattern matches. */
  function FirstDateAt(s: string, from: nat): (r: Option<nat>)
    requires from <= |s|
    ensures r.Some? ==> from <= r.value < |s| && MatchesAt(s, r.value)
    ensures r.Some? ==> forall j :: from <= j < r.value ==> !MatchesAt(s, j)
    ensures r.None? ==> forall j :: from <= j < |s| ==> !MatchesAt(s, j)
    decreases |s| - from
  {
    if from == |s| then None
    else if MatchesAt(s, from) then Some(from)
    else
      var r := FirstDateAt(s, from + 1);
      assert !MatchesAt(s, from);
      r
  }

  /** The group of the first match of the date pattern in `s`, if any. */
  function SearchDate(s: string): (r: Option<string>)
    ensures r.Some? ==> DateShape(r.value)
  {
    match FirstDateAt(s, 0)
    case Some(i) =>
      DateGroupAtShape(s[i..]);
      DateGroupAt(s[i..])
    case None => None
  }

  /** The search finds a date exactly when the pattern matches somewhere. */
  lemma SearchDateFinds(s: string)
    ensures SearchDate(s).Some? <==> exists j :: 0 <= j < |s| && MatchesAt(s, j)
  {
    var f := FirstDateAt(s, 0);
    if f.Some? {
      DateGroupAtShape(s[f.value..]);
    }
  }

  /** A date after text holding no '(' is the one the search finds. */
  lemma SearchDateAfter(prefix: string, g: string, rest: string)
    requires '(' !in prefix && DateShape(g)
    ensures SearchDate(prefix + "(" + g + ")" + rest) == Some(g)
  {
    var s := prefix + "(" + g + ")" + rest;
    var k := |prefix|;
    assert s[k..] == "(" + g + ")" + rest;
    DateGroupAtOf(s[k..], g, rest);
    assert MatchesAt(s, k);
    forall j | 0 <= j < k ensures !MatchesAt(s, j) {
      assert s[j..][0] == prefix[j];
    }
    FirstDateAtIs(s, 0, k);
  }

  lemma {:induction false} FirstDateAtIs(s: string, from: nat, k: nat)
    requires from <= k < |s| && MatchesAt(s, k)
    requires forall j :: from <= j < k ==> !MatchesAt(s, j)
    ensures FirstDateAt(s, from) == Some(k)
    decreases k - from
  {
    if from < k {
      FirstDateAtIs(s, from + 1, k);
    }
  }
}

=== FILE: numbers.dfy ===
/** Decimal digits and the two numeric conversions of the parsers: Python's
    `int(str)` and, over exact rationals, `float(str)`. */
module Numbers {
  import opened Results
  import opened Text

  predicate IsDigit(c: char) {
    '0' <= c <= '9'
  }

  predicate AllDigits(s: string) {
    forall i :: 0 <= i < |s| ==> IsDigit(s[i])
  }

  function DigitValue(c: char): nat
    requires IsDigit(c)
  {
    c as int - '0' as int
  }

  function Digit(n: nat): (c: char)
    requires n < 10
    ensures IsDigit(c) && DigitValue(c) == n
  {
    ('0' as int + n) as char
  }

  function Pow10(k: nat): (p: nat)
    ensures p >= 1
  {
    if k == 0 then 1 else 10 * Pow10(k - 1)
  }

  /** The number a string of decimal digits denotes (leading zeros allowed). */
  function DigitsValue(s: string): nat
    requires AllDigits(s)
  {
    if s == [] then 0 else DigitsValue(s[..|s| - 1]) * 10 + DigitValue(s[|s| - 1])
  }

  lemma {:induction false} DigitsValueAppend(a: string, b: string)
    requires AllDigits(a) && AllDigits(b)
    ensures AllDigits(a + b)
    ensures DigitsValue(a + b) == DigitsValue(a) * Pow10(|b|) + DigitsValue(b)
  {
    if b != [] {
      var b' := b[..|b| - 1];
      var s := a + b;
      assert s[..|s| - 1] == a + b';
      assert s[|s| - 1] == b[|b| - 1];
      DigitsValueAppend(a, b');
      var x, p, y, d := DigitsValue(a), Pow10(|b'|), DigitsValue(b'), DigitValue(b[|b| - 1]);
      var v := DigitsValue(a + b');
      assert v == x * p + y;
      assert DigitsValue(s) == v * 10 + d;
      assert Pow10(|b|) == p * 10;
      assert DigitsValue(b) == y * 10 + d;
      ShiftDigit(x, p, y, d);
    } else {
      assert a + b == a;
    }
  }

  /** Appending a digit multiplies the place value of what precedes by ten. */
  lemma ShiftDigit(x: int, p: int, y: int, d: int)
    ensures (x * p + y) * 10 + d == x * (p * 10) + (y * 10 + d)
  {
  }

  /** Two digit strings of the same length with the same value are equal. */
  lemma {:induction false} DigitsUnique(a: string, b: string)
    requires AllDigits(a) && AllDigits(b) && |a| == |b| && DigitsValue(a) == DigitsValue(b)
    ensures a == b
  {
    if a != [] {
      var a', b' := a[..|a| - 1], b[..|b| - 1];
      var x, y := DigitsValue(a'), DigitsValue(b');
      var da, db := DigitValue(a[|a| - 1]), DigitValue(b[|b| - 1]);
      LastDigit(x, da, y, db);
      DigitsUnique(a', b');
      assert a == a' + [a[|a| - 1]] && b == b' + [b[|b| - 1]];
    }
  }

  /** The last digit and what precedes it are determined by the value. */
  lemma LastDigit(x: nat, da: nat, y: nat, db: nat)
    requires da < 10 && db < 10 && x * 10 + da == y * 10 + db
    ensures x == y && da == db
  {
  }

  function Zeros(k: nat): (z: string)
    ensures |z| == k && AllDigits(z)
  {
    seq(k, _ => '0')
  }

  lemma {:induction false} ZerosValue(k: nat)
    ensures DigitsValue(Zeros(k)) == 0
  {
    if k > 0 {
      assert Zeros(k)[..k - 1] == Zeros(k - 1);
      ZerosValue(k - 1);
    }
  }

  /** Leading zeros do not change the value. */
  lemma LeadingZeros(k: nat, s: string)
    requires AllDigits(s)
    ensures AllDigits(Zeros(k) + s) && DigitsValue(Zeros(k) + s) == DigitsValue(s)
  {
    DigitsValueAppend(Zeros(k), s);
    ZerosValue(k);
  }

  /** The shortest decimal spelling of `n`, as Python's `str(n)`. */
  function NatDigits(n: nat): (s: string)
    ensures |s| >= 1 && AllDigits(s)
    ensures DigitsValue(s) == n
    ensures |s| > 1 ==> s[0] != '0'
  {
    if n < 10 then [Digit(n)]
    else
      var d := NatDigits(n / 10) + [Digit(n % 10)];
      assert d[..|d| - 1] == NatDigits(n / 10);
      d
  }

  /** `n` written with at least `width` digits, zero-padded on the left. */
  function PadDigits(n: nat, width: nat): (s: string)
    ensures |s| >= width && |s| >= 1 && AllDigits(s) && DigitsValue(s) == n
  {
    var d := NatDigits(n);
    if |d| >= width then d
    else
      LeadingZeros(width - |d|, d);
      Zeros(width - |d|) + d
  }

  lemma PadDigitsExact(n: nat, width: nat)
    requires (n < 10 && width == 1) || (n < 100 && width == 2) || (n < 10000 && width == 4)
    ensures |PadDigits(n, width)| == width
  {
    if width == 2 && n >= 10 {
      assert |NatDigits(n / 10)| == 1;
    } else if width == 4 && n >= 10 {
      if n < 100 {
        assert |NatDigits(n / 10)| == 1;
      } else if n < 1000 {
        assert |NatDigits(n / 100)| == 1;
        assert |NatDigits(n / 10)| == 2;
      } else {
        assert |NatDigits(n / 1000)| == 1;
        assert |NatDigits(n / 100)| == 2;
        assert |NatDigits(n / 10)| == 3;
      }
    }
  }

  /** Python's `str(n)` for an integer. */
  function IntText(n: int): string {
    if n < 0 then "-" + NatDigits(-n) else NatDigits(n)
  }

  /** Splits an optional leading sign off a text: whether it was '-', and
      the rest. */
  function Unsign(t: string): (r: (bool, string))
    ensures r.0 <==> t != [] && t[0] == '-'
    ensures r.1 == t || (t != [] && (t[0] == '-' || t[0] == '+') && r.1 == t[1..])
  {
    if t != [] && (t[0] == '-' || t[0] == '+') then (t[0] == '-', t[1..]) else (false, t)
  }

  /** Python's `int(s)` for a text: surrounding whitespace, an optional sign,
      then one or more decimal digits; anything else is a ValueError. */
  function ParseInt(s: string): (r: Result<int>)
    ensures AllSpace(s) ==> r == Err(ValueError)
    ensures r.Err? ==> r.error == ValueError
  {
    var (negative, body) := Unsign(Strip(s));
    if body == [] || !AllDigits(body) then Err(ValueError)
    else
      var v: int := DigitsValue(body);
      Ok(if negative then -v else v)
  }

  lemma TrimmedDigits(s: string)
    requires |s| >= 1 && IsDigit(s[|s| - 1]) && (IsDigit(s[0]) || s[0] == '-')
    ensures Strip(s) == s
  {
    assert [] + s + [] == s;
    StripOf([], s, []);
  }

  /** `int(str(n)) == n`. */
  lemma ParseIntText(n: int)
    ensures ParseInt(IntText(n)) == Ok(n)
  {
    var t := IntText(n);
    TrimmedDigits(t);
    if n < 0 {
      assert t[1..] == NatDigits(-n);
    }
  }

  /** One or more decimal digits spelling `v`. */
  predicate DigitsOf(u: string, v: int) {
    |u| >= 1 && AllDigits(u) && v == DigitsValue(u)
  }

  /** The texts `int` accepts once trimmed, and the number each denotes:
      digits, optionally behind a '+' or a '-'. */
  predicate IntLiteral(t: string, v: int) {
    || DigitsOf(t, v)
    || (|t| >= 1 && t[0] == '+' && DigitsOf(t[1..], v))
    || (|t| >= 1 && t[0] == '-' && DigitsOf(t[1..], -v))
  }

  /** `int(s)` succeeds with `v` exactly when the trimmed text is an integer
      literal denoting `v`: anything else is refused. */
  lemma ParseIntAccepts(s: string, v: int)
    ensures ParseInt(s) == Ok(v) <==> IntLiteral(Strip(s), v)
  {
    var t := Strip(s);
    if t != [] && (t[0] == '+' || t[0] == '-') {
      assert !IsDigit(t[0]);
      assert Unsign(t) == (t[0] == '-', t[1..]);
    } else {
      assert Unsign(t) == (false, t);
    }
  }

  /** `float` on an unsigned literal: digits with at most one decimal point and
      at least one digit, read exactly. */
  function ParseUnsignedDecimal(body: string): (r: Result<real>)
    ensures body == [] ==> r == Err(ValueError)
    ensures r.Err? ==> r.error == ValueError
    ensures r.Ok? ==> r.value >= 0.0
  {
    var parts := Split(body, '.');
    if |parts| > 2 then Err(ValueError)
    else
      var whole := parts[0];
      var frac := if |parts| == 2 then parts[1] else [];
      if |whole| + |frac| == 0 || !AllDigits(whole) || !AllDigits(frac) then Err(ValueError)
      else
        DigitsValueAppend(whole, frac);
        Ok(Scaled(DigitsValue(whole + frac), |frac|))
  }

  /** `m` scaled down by `k` decimal places: m / 10^k, exactly. */
  function Scaled(m: nat, k: nat): (r: real)
    ensures r >= 0.0
    ensures k == 0 ==> r == m as real
  {
    m as real / Pow10(k) as real
  }

  /** Python's `float(s)` on plain decimal literals, computed exactly:
      surrounding whitespace, an optional sign, then an unsigned literal. */
  function ParseDecimal(s: string): (r: Result<real>)
    ensures AllSpace(s) ==> r == Err(ValueError)
    ensures r.Err? ==> r.error == ValueError
  {
    var (negative, body) := Unsign(Strip(s));
    match ParseUnsignedDecimal(body)
    case Ok(m) => Ok(if negative then -m else m)
    case Err(e) => Err(e)
  }

  /** The literal for n / 10^k with exactly k digits after the point (no point
      when k is 0), as a price is written on the page. */
  function DecimalText(n: nat, k: nat): string {
    var d := PadDigits(n, k + 1);
    if k == 0 then d else d[..|d| - k] + ['.'] + d[|d| - k..]
  }

  /** A decimal literal holds digits and at most a point. */
  lemma DecimalTextChars(n: nat, k: nat)
    ensures forall i :: 0 <= i < |DecimalText(n, k)| ==> IsDigit(DecimalText(n, k)[i]) || DecimalText(n, k)[i] == '.'
    ensures |DecimalText(n, k)| >= 1 && IsDigit(DecimalText(n, k)[0])
    ensures IsDigit(DecimalText(n, k)[|DecimalText(n, k)| - 1])
  {
    var d := PadDigits(n, k + 1);
    var t := DecimalText(n, k);
    if k == 0 {
      assert t == d;
    } else {
      assert t == d[..|d| - k] + ['.'] + d[|d| - k..];
      PointedChars(d, k);
    }
  }

  lemma PointedChars(d: string, k: nat)
    requires AllDigits(d) && |d| > k > 0
    ensures var t := d[..|d| - k] + ['.'] + d[|d| - k..];
      && (forall i :: 0 <= i < |t| ==> IsDigit(t[i]) || t[i] == '.')
      && IsDigit(t[0]) && IsDigit(t[|t| - 1])
  {
    var t := d[..|d| - k] + ['.'] + d[|d| - k..];
    forall i | 0 <= i < |t| ensures IsDigit(t[i]) || t[i] == '.' {
      if i < |d| - k {
        assert t[i] == d[i];
      } else if i > |d| - k {
        assert t[i] == d[i - 1];
      }
    }
    assert t[0] == d[0];
    assert t[|t| - 1] == d[|d| - 1];
  }

  // ---------------------------------------------------------------- rating

  lemma NoDotInDigits(s: string)
    requires AllDigits(s)
    ensures '.' !in s
  {
  }

  /** A digit string with a point: the value is the digits read as one
      integer, scaled by the number of digits after the point. */
  lemma ParsePointed(w: string, f: string)
    requires |w| >= 1 && AllDigits(w) && AllDigits(f)
    ensures AllDigits(w + f)
    ensures ParseUnsignedDecimal(w + ['.'] + f) == Ok(Scaled(DigitsValue(w + f), |f|))
  {
    NoDotInDigits(w);
    NoDotInDigits(f);
    SplitAt(w, '.', f);
    SplitNone(f, '.');
    DigitsValueAppend(w, f);
  }

  /** A digit string without a point is read as an integer. */
  lemma ParseWhole(w: string)
    requires |w| >= 1 && AllDigits(w)
    ensures ParseUnsignedDecimal(w) == Ok(DigitsValue(w) as real)
  {
    NoDotInDigits(w);
    SplitNone(w, '.');
    var empty: string := [];
    assert w + empty == w;
  }

  /** Without a sign, `float` reads the trimmed text as an unsigned literal. */
  lemma Unsigned(t: string)
    requires |t| >= 1 && IsDigit(t[0]) && IsDigit(t[|t| - 1])
    ensures ParseDecimal(t) == ParseUnsignedDecimal(t)
  {
    TrimmedDigits(t);
    assert Unsign(t) == (false, t);
  }

  /** A point placed `k` digits from the end of a digit string scales its
      value by 10^-k. */
  lemma PointAt(t: string, d: string, k: nat)
    requires AllDigits(d) && |d| > k > 0
    requires t == d[..|d| - k] + ['.'] + d[|d| - k..]
    ensures ParseUnsignedDecimal(t) == Ok(Scaled(DigitsValue(d), k))
  {
    var w, f := d[..|d| - k], d[|d| - k..];
    assert w + f == d;
    ParsePointed(w, f);
  }

  lemma UnsignedDecimalText(n: nat, k: nat)
    ensures ParseUnsignedDecimal(DecimalText(n, k)) == Ok(Scaled(n, k))
  {
    var d := PadDigits(n, k + 1);
    var t := DecimalText(n, k);
    assert DigitsValue(d) == n;
    if k == 0 {
      assert t == d;
      ParseWhole(d);
      assert Scaled(n, k) == n as real;
    } else {
      assert t == d[..|d| - k] + ['.'] + d[|d| - k..];
      PointAt(t, d, k);
    }
  }

  /** `float` reads back exactly the value its literal denotes. */
  lemma ParseDecimalText(n: nat, k: nat)
    ensures ParseDecimal(DecimalText(n, k)) == Ok(Scaled(n, k))
  {
    var d := PadDigits(n, k + 1);
    var t := DecimalText(n, k);
    assert t[0] == d[0] && t[|t| - 1] == d[|d| - 1];
    UnsignedDecimalText(n, k);
    Unsigned(t);
  }

  /** `float` of a negative literal is the negated value. */
  lemma ParseNegativeText(n: nat, k: nat)
    ensures ParseDecimal("-" + DecimalText(n, k)) == Ok(-Scaled(n, k))
  {
    DecimalTextChars(n, k);
    UnsignedDecimalText(n, k);
    Negated(DecimalText(n, k), Scaled(n, k));
  }

  /** `float` of '-' and a literal starting and ending with a digit is the
      negated unsigned value. */
  lemma Negated(t: string, m: real)
    requires |t| >= 1 && IsDigit(t[0]) && IsDigit(t[|t| - 1]) && ParseUnsignedDecimal(t) == Ok(m)
    ensures ParseDecimal("-" + t) == Ok(-m)
  {
    var s := "-" + t;
    assert s[|s| - 1] == t[|t| - 1];
    TrimmedDigits(s);
    assert Unsign(s) == (true, t);
  }

  /** Digits `w`, a point, digits `f`: the whole part plus the fraction. */
  predicate PointedOf(w: string, f: string, m: real) {
    && AllDigits(w) && AllDigits(f) && |w| + |f| >= 1
    && m == DigitsValue(w) as real + Scaled(DigitsValue(f), |f|)
  }

  /** The unsigned texts `float` accepts, and the number each denotes:
      digits, or digits with one point and a digit on at least one side. */
  predicate UnsignedLiteral(u: string, m: real) {
    || (|u| >= 1 && AllDigits(u) && m == DigitsValue(u) as real)
    || (exists i :: 0 <= i < |u| && u[i] == '.' && PointedOf(u[..i], u[i + 1..], m))
  }

  /** The texts `float` accepts once trimmed: an unsigned literal, optionally
      behind a '+' or a '-'. */
  predicate DecimalLiteral(t: string, v: real) {
    || UnsignedLiteral(t, v)
    || (|t| >= 1 && t[0] == '+' && UnsignedLiteral(t[1..], v))
    || (|t| >= 1 && t[0] == '-' && UnsignedLiteral(t[1..], -v))
  }

  /** Reading the digits on both sides of the point as one integer and
      scaling it is the whole part plus the fraction. */
  lemma ScaledSplit(w: string, f: string)
    requires AllDigits(w) && AllDigits(f)
    ensures AllDigits(w + f)
    ensures Scaled(DigitsValue(w + f), |f|) == DigitsValue(w) as real + Scaled(DigitsValue(f), |f|)
  {
    DigitsValueAppend(w, f);
    ShiftReal(DigitsValue(w), Pow10(|f|), DigitsValue(f));
  }

  lemma ShiftReal(x: nat, p: nat, y: nat)
    requires p >= 1
    ensures (x * p + y) as real / p as real == x as real + y as real / p as real
  {
    assert (x * p + y) as real == x as real * p as real + y as real;
  }

  /** `float` accepts an unsigned text exactly when it is an unsigned
      literal, with the value that literal denotes. */
  lemma UnsignedAccepts(u: string, m: real)
    ensures ParseUnsignedDecimal(u) == Ok(m) <==> UnsignedLiteral(u, m)
  {
    if ParseUnsignedDecimal(u) == Ok(m) {
      UnsignedAccepted(u, m);
    }
    if UnsignedLiteral(u, m) {
      UnsignedLiteralParses(u, m);
    }
  }

  lemma UnsignedAccepted(u: string, m: real)
    requires ParseUnsignedDecimal(u) == Ok(m)
    ensures UnsignedLiteral(u, m)
  {
    var parts := Split(u, '.');
    JoinSplit(u, '.');
    var w := parts[0];
    if |parts| == 1 {
      assert u == w;
      assert w + [] == w;
    } else {
      var f := parts[1];
      assert parts[1..] == [f];
      assert u == w + ['.'] + f;
      var i := |w|;
      assert u[..i] == w && u[i + 1..] == f && u[i] == '.';
      ScaledSplit(w, f);
      assert PointedOf(u[..i], u[i + 1..], m);
    }
  }

  lemma UnsignedLiteralParses(u: string, m: real)
    requires UnsignedLiteral(u, m)
    ensures ParseUnsignedDecimal(u) == Ok(m)
  {
    if i :| 0 <= i < |u| && u[i] == '.' && PointedOf(u[..i], u[i + 1..], m) {
      PointedIndexParses(u, i, m);
    } else {
      ParseWhole(u);
    }
  }

  lemma PointedIndexParses(u: string, i: nat, m: real)
    requires i < |u| && u[i] == '.' && PointedOf(u[..i], u[i + 1..], m)
    ensures ParseUnsignedDecimal(u) == Ok(m)
  {
    assert u == u[..i] + ['.'] + u[i + 1..];
    PointedParses(u[..i], u[i + 1..], m);
  }

  /** Digits, a point and digits read as the whole part plus the fraction. */
  lemma PointedParses(w: string, f: string, m: real)
    requires PointedOf(w, f, m)
    ensures ParseUnsignedDecimal(w + ['.'] + f) == Ok(m)
  {
    NoDotInDigits(w);
    NoDotInDigits(f);
    SplitAt(w, '.', f);
    SplitNone(f, '.');
    ScaledSplit(w, f);
  }

  /** `float(s)` succeeds with `v` exactly when the trimmed text is a decimal
      literal denoting `v`: anything else is refused. */
  lemma ParseDecimalAccepts(s: string, v: real)
    ensures ParseDecimal(s) == Ok(v) <==> DecimalLiteral(Strip(s), v)
  {
    var t := Strip(s);
    if t != [] && (t[0] == '+' || t[0] == '-') {
      assert Unsign(t) == (t[0] == '-', t[1..]);
      UnsignedAccepts(t[1..], if t[0] == '-' then -v else v);
      NotUnsigned(t, v);
    } else {
      assert Unsign(t) == (false, t);
      UnsignedAccepts(t, v);
    }
  }

  /** A text starting with a sign is no unsigned literal. */
  lemma NotUnsigned(t: string, v: real)
    requires t != [] && (t[0] == '+' || t[0] == '-')
    ensures !UnsignedLiteral(t, v)
  {
    forall i | 0 <= i < |t| && t[i] == '.'
      ensures !PointedOf(t[..i], t[i + 1..], v)
    {
      if i > 0 {
        assert t[..i][0] == t[0];
      }
    }
  }

  /** A decimal literal holds digits, a point and a sign only. */
  lemma LiteralChars(t: string, v: real)
    requires DecimalLiteral(t, v)
    ensures forall i :: 0 <= i < |t| ==> IsDigit(t[i]) || t[i] == '.' || t[i] == '+' || t[i] == '-'
  {
    if UnsignedLiteral(t, v) {
      UnsignedChars(t, v);
    } else if t[0] == '+' {
      UnsignedChars(t[1..], v);
      forall i | 1 <= i < |t| ensures IsDigit(t[i]) || t[i] == '.' {
        assert t[i] == t[1..][i - 1];
      }
    } else {
      UnsignedChars(t[1..], -v);
      forall i | 1 <= i < |t| ensures IsDigit(t[i]) || t[i] == '.' {
        assert t[i] == t[1..][i - 1];
      }
    }
  }

  lemma UnsignedChars(u: string, m: real)
    requires UnsignedLiteral(u, m)
    ensures forall i :: 0 <= i < |u| ==> IsDigit(u[i]) || u[i] == '.'
  {
    if !(|u| >= 1 && AllDigits(u) && m == DigitsValue(u) as real) {
      var j :| 0 <= j < |u| && u[j] == '.' && PointedOf(u[..j], u[j + 1..], m);
      forall i | 0 <= i < |u| ensures IsDigit(u[i]) || u[i] == '.' {
        if i < j {
          assert u[i] == u[..j][i];
        } else if i > j {
          assert u[i] == u[j + 1..][i - j - 1];
        }
      }
    }
  }
}

=== FILE: results.dfy ===
/** Failure-compatible wrappers shared by every module. An `Err` carries the
    kind of Python exception the Python code raises at that point. */
module Results {

  datatype Option<+T> = None | Some(value: T) {
    function GetOr(default: T): T {
      match this
      case Some(v) => v
      case None => default
    }
  }

  /** The Python exceptions the modelled code can raise. */
  datatype PyError =
    | AttributeError   // a lookup returned None and the code used it anyway
    | IndexError       // a list index past the end
    | TypeError        // a regex applied to None
    | ValueError       // int(), float(), strptime() or DataFrame.insert refused
    | KeyError         // a DataFrame column selection named a missing column

  datatype Result<+T> = Ok(value: T) | Err(error: PyError) {
    predicate IsFailure() {
      Err?
    }

    function PropagateFailure<U>(): Result<U>
      requires Err?
    {
      Err(error)
    }

    function Extract(): T
      requires Ok?
    {
      value
    }
  }
}

=== FILE: rows.dfy ===
/** The two `processRow` functions and the loops around them: every table row
    is turned into a rating record, and a row whose processing raises is
    skipped without affecting the others. */
module Rows {
  import opened Results
  import opened Text
  import opened Cells
  import opened Dataset

  /** The dictionary `processRow` returns. */
  datatype Rating = Rating(
    symbol: string,
    date: string,
    exchange: string,
    action: string,
    brokerage: string,
    brokerageCode: string,
    analyst: Option<string>,
    priceTarget: real,
    rating: string,
    ratingCode: int)

  /** `row[i]`: an IndexError past the end of the row. */
  function Column(row: seq<Cell>, i: nat): (r: Result<Cell>)
    ensures r.Ok? <==> i < |row|
    ensures r.Ok? ==> r.value == row[i]
    ensures r.Err? ==> r.error == IndexError
  {
    if i < |row| then Ok(row[i]) else Err(IndexError)
  }

  /** `processRow` of the daily ratings page. Columns: 0 symbol, 1 action,
      2 brokerage, 3 analyst, 5 price target, 6 rating; column 4 is not read.
      The date is the page date. */
  function DailyRow(row: seq<Cell>, date: string): (r: Result<Rating>)
    ensures r.Ok? <==>
      && |row| >= 7
      && ParseSymbol(row[0]).Ok? && ParseBrokerage(row[2]).Ok?
      && ParsePriceTarget(row[5]).Ok? && ParseRating(row[6]).Ok?
    ensures r.Ok? ==> r.value.date == date
    ensures r.Ok? ==> r.value.symbol == ParseSymbol(row[0]).value.0 && r.value.exchange == ParseSymbol(row[0]).value.2
    ensures r.Ok? ==> r.value.action == Strip(row[1].text)
    ensures r.Ok? ==> (r.value.brokerage, r.value.brokerageCode) == ParseBrokerage(row[2]).value
    ensures r.Ok? ==> r.value.analyst == ParseAnalyst(row[3])
    ensures r.Ok? ==> r.value.priceTarget == ParsePriceTarget(row[5]).value
    ensures r.Ok? ==> (r.value.rating, r.value.ratingCode) == ParseRating(row[6]).value
  {
    var symbolCell :- Column(row, 0);
    var symbol :- ParseSymbol(symbolCell);
    var actionCell :- Column(row, 1);
    var brokerageCell :- Column(row, 2);
    var brokerage :- ParseBrokerage(brokerageCell);
    var analystCell :- Column(row, 3);
    var priceCell :- Column(row, 5);
    var price :- ParsePriceTarget(priceCell);
    var ratingCell :- Column(row, 6);
    var rating :- ParseRating(ratingCell);
    Ok(Rating(symbol.0, date, symbol.2, Strip(actionCell.text), brokerage.0, brokerage.1,
              ParseAnalyst(analystCell), price, rating.0, rating.1))
  }

  /** `processRow` of a symbol's rating history. Columns: 0 date, 1 brokerage,
      2 analyst, 3 action, 4 rating, 5 price target. Symbol and exchange are
      those of the page. */
  function HistoryRow(row: seq<Cell>, symbol: string, exchange: string): (r: Result<Rating>)
    ensures r.Ok? <==>
      && |row| >= 6
      && ParseDate(row[0]).Ok? && ParseBrokerage(row[1]).Ok?
      && ParseRating(row[4]).Ok? && ParsePriceTarget(row[5]).Ok?
    ensures r.Ok? ==> r.value.symbol == symbol && r.value.exchange == exchange
    ensures r.Ok? ==> |r.value.date| == 10 && r.value.date[4] == '-' && r.value.date[7] == '-'
    ensures r.Ok? ==> r.value.date == ParseDate(row[0]).value
    ensures r.Ok? ==> (r.value.brokerage, r.value.brokerageCode) == ParseBrokerage(row[1]).value
    ensures r.Ok? ==> r.value.analyst == ParseAnalyst(row[2])
    ensures r.Ok? ==> r.value.action == Strip(row[3].text)
    ensures r.Ok? ==> (r.value.rating, r.value.ratingCode) == ParseRating(row[4]).value
    ensures r.Ok? ==> r.value.priceTarget == ParsePriceTarget(row[5]).value
  {
    var dateCell :- Column(row, 0);
    var date :- ParseDate(dateCell);
    var brokerageCell :- Column(row, 1);
    var brokerage :- ParseBrokerage(brokerageCell);
    var analystCell :- Column(row, 2);
    var actionCell :- Column(row, 3);
    var ratingCell :- Column(row, 4);
    var rating :- ParseRating(ratingCell);
    var priceCell :- Column(row, 5);
    var price :- ParsePriceTarget(priceCell);
    Ok(Rating(symbol, date, exchange, Strip(actionCell.text), brokerage.0, brokerage.1,
              ParseAnalyst(analystCell), price, rating.0, rating.1))
  }

  /** Column 4 of a daily row is never looked at. */
  lemma DailyIgnoresColumn4(row: seq<Cell>, date: string, other: Cell)
    requires |row| > 4
    ensures DailyRow(row[4 := other], date) == DailyRow(row, date)
  {
    var changed := row[4 := other];
    assert Column(changed, 0) == Column(row, 0) && Column(changed, 1) == Column(row, 1);
    assert Column(changed, 2) == Column(row, 2) && Column(changed, 3) == Column(row, 3);
    assert Column(changed, 5) == Column(row, 5) && Column(changed, 6) == Column(row, 6);
  }

  /** Cells after the ones a row needs change nothing. */
  lemma DailyIgnoresExtra(row: seq<Cell>, extra: seq<Cell>, date: string)
    requires |row| >= 7
    ensures DailyRow(row + extra, date) == DailyRow(row, date)
  {
    var longer := row + extra;
    assert Column(longer, 0) == Column(row, 0) && Column(longer, 1) == Column(row, 1);
    assert Column(longer, 2) == Column(row, 2) && Column(longer, 3) == Column(row, 3);
    assert Column(longer, 5) == Column(row, 5) && Column(longer, 6) == Column(row, 6);
  }

  lemma HistoryIgnoresExtra(row: seq<Cell>, extra: seq<Cell>, symbol: string, exchange: string)
    requires |row| >= 6
    ensures HistoryRow(row + extra, symbol, exchange) == HistoryRow(row, symbol, exchange)
  {
    var longer := row + extra;
    assert Column(longer, 0) == Column(row, 0) && Column(longer, 1) == Column(row, 1);
    assert Column(longer, 2) == Column(row, 2) && Column(longer, 3) == Column(row, 3);
    assert Column(longer, 4) == Column(row, 4) && Column(longer, 5) == Column(row, 5);
  }

  /** The dictionary as `pd.DataFrame` sees it, keys in literal order. */
  function Fields(r: Rating): (rec: Record)
    ensures Keys(rec) == RatingKeys()
  {
    var rec := [
      ("symbol", Str(r.symbol)),
      ("date", Str(r.date)),
      ("exchange", Str(r.exchange)),
      ("action", Str(r.action)),
      ("brokerage", Str(r.brokerage)),
      ("brokerage_code", Str(r.brokerageCode)),
      ("analyst", AnalystValue(r.analyst)),
      ("price_target", Real(r.priceTarget)),
      ("rating", Str(r.rating)),
      ("rating_code", Int(r.ratingCode)) ];
    assert |Keys(rec)| == |RatingKeys()|;
    assert forall i :: 0 <= i < |rec| ==> Keys(rec)[i] == RatingKeys()[i];
    rec
  }

  /** The analyst as the frame holds it: the name, or None. */
  function AnalystValue(a: Option<string>): Value {
    if a.Some? then Str(a.value) else NoneValue
  }

  function RatingKeys(): seq<string> {
    ["symbol", "date", "exchange", "action", "brokerage", "brokerage_code",
     "analyst", "price_target", "rating", "rating_code"]
  }

  // ------------------------------------------------------------ isolation

  /** The records of the rows whose processing succeeds, in row order. */
  function Survivors(rows: seq<seq<Cell>>, process: seq<Cell> -> Result<Rating>): (out: seq<Rating>)
    ensures |out| <= |rows|
  {
    if rows == [] then []
    else
      var last := process(rows[|rows| - 1]);
      Survivors(rows[..|rows| - 1], process) + (if last.Ok? then [last.value] else [])
  }

  /** The loop with its try/except: append each record, skip each failure. */
  method KeepParsed(rows: seq<seq<Cell>>, process: seq<Cell> -> Result<Rating>) returns (out: seq<Rating>)
    ensures out == Survivors(rows, process)
  {
    out := [];
    var i := 0;
    while i < |rows|
      invariant 0 <= i <= |rows|
      invariant out == Survivors(rows[..i], process)
    {
      assert rows[..i + 1][..i] == rows[..i];
      var r := process(rows[i]);
      if r.Ok? {
        out := out + [r.value];
      }
      i := i + 1;
    }
    assert rows[..i] == rows;
  }

  /** The records of two runs of rows are those of each run, in order. */
  lemma {:induction false} SurvivorsAppend(a: seq<seq<Cell>>, b: seq<seq<Cell>>, process: seq<Cell> -> Result<Rating>)
    ensures Survivors(a + b, process) == Survivors(a, process) + Survivors(b, process)
    decreases |b|
  {
    if b == [] {
      assert a + b == a;
    } else {
      var init := b[..|b| - 1];
      assert (a + b)[..|a + b| - 1] == a + init;
      SurvivorsAppend(a, init, process);
    }
  }

  lemma SurvivorsOne(row: seq<Cell>, process: seq<Cell> -> Result<Rating>)
    ensures Survivors([row], process) == if process(row).Ok? then [process(row).value] else []
  {
    assert [row][..0] == [];
  }

  /** A failing row leaves the records of all other rows as they were. */
  lemma DropFailing(a: seq<seq<Cell>>, row: seq<Cell>, b: seq<seq<Cell>>, process: seq<Cell> -> Result<Rating>)
    requires process(row).Err?
    ensures Survivors(a + [row] + b, process) == Survivors(a + b, process)
  {
    SurvivorsAppend(a + [row], b, process);
    SurvivorsAppend(a, [row], process);
    SurvivorsOne(row, process);
    SurvivorsAppend(a, b, process);
  }

  /** When every row succeeds, there is one record per row, the i-th being
      that of the i-th row. */
  lemma {:induction false} AllSucceed(rows: seq<seq<Cell>>, process: seq<Cell> -> Result<Rating>)
    requires forall i :: 0 <= i < |rows| ==> process(rows[i]).Ok?
    ensures |Survivors(rows, process)| == |rows|
    ensures forall i :: 0 <= i < |rows| ==> Survivors(rows, process)[i] == process(rows[i]).value
  {
    if rows != [] {
      var init := rows[..|rows| - 1];
      AllSucceed(init, process);
    }
  }

  /** Every record is the result of some row whose processing succeeded, and
      every row that succeeds contributes its record. */
  lemma {:induction false} SurvivorsExactly(rows: seq<seq<Cell>>, process: seq<Cell> -> Result<Rating>)
    ensures forall r :: r in Survivors(rows, process) ==>
      exists i :: 0 <= i < |rows| && process(rows[i]) == Ok(r)
    ensures forall i :: 0 <= i < |rows| && process(rows[i]).Ok? ==>
      process(rows[i]).value in Survivors(rows, process)
  {
    if rows != [] {
      var init := rows[..|rows| - 1];
      SurvivorsExactly(init, process);
      forall r | r in Survivors(rows, process)
        ensures exists i :: 0 <= i < |rows| && process(rows[i]) == Ok(r)
      {
        if r in Survivors(init, process) {
          var i :| 0 <= i < |init| && process(init[i]) == Ok(r);
          assert rows[i] == init[i];
        } else {
          assert process(rows[|rows| - 1]) == Ok(r);
        }
      }
    }
  }

  /** Rows too short for their workflow are always dropped. */
  lemma ShortRowsDropped(a: seq<seq<Cell>>, row: seq<Cell>, b: seq<seq<Cell>>, date: string)
    requires |row| < 7
    ensures Survivors(a + [row] + b, r => DailyRow(r, date)) == Survivors(a + b, r => DailyRow(r, date))
  {
    DropFailing(a, row, b, r => DailyRow(r, date));
  }

  /** Every record of the daily workflow carries the page date. */
  lemma {:induction false} DailyShareDate(rows: seq<seq<Cell>>, date: string)
    ensures forall r :: r in Survivors(rows, row => DailyRow(row, date)) ==> r.date == date
  {
    SurvivorsExactly(rows, row => DailyRow(row, date));
  }

  /** Every record of the history workflow carries the page's symbol and exchange. */
  lemma {:induction false} HistoryShareSymbol(rows: seq<seq<Cell>>, symbol: string, exchange: string)
    ensures forall r :: r in Survivors(rows, row => HistoryRow(row, symbol, exchange)) ==>
      r.symbol == symbol && r.exchange == exchange
  {
    SurvivorsExactly(rows, row => HistoryRow(row, symbol, exchange));
  }

  // -------------------------------------------------------------- dataset

  function RatingRecords(ratings: seq<Rating>): (rs: seq<Record>)
    ensures |rs| == |ratings|
    ensures forall i :: 0 <= i < |ratings| ==> rs[i] == Fields(ratings[i])
  {
    seq(|ratings|, i requires 0 <= i < |ratings| => Fields(ratings[i]))
  }

  /** The columns a frame of ratings has. */
  function RatingColumns(): seq<string> {
    ["uid", "symbol", "date", "exchange", "action", "brokerage",
     "analyst", "price_target", "rating", "rating_code"]
  }

  /** The frame built from rating records: its uid is date, symbol and
      brokerage joined by '_'; the columns are "uid" then the dictionary keys
      without "brokerage_code". No rating list but the empty one is refused. */
  lemma RatingsDataset(ratings: seq<Rating>, floatText: real -> string)
    ensures ratings == [] ==> BuildDataset(RatingRecords(ratings), floatText) == Err(KeyError)
    ensures ratings != [] ==>
      var r := BuildDataset(RatingRecords(ratings), floatText);
      && r.Ok?
      && r.value.columns == RatingColumns()
      && |r.value.rows| == |ratings|
      && forall i :: 0 <= i < |ratings| ==>
           r.value.rows[i][UID] == Str(ratings[i].date + "_" + ratings[i].symbol + "_" + ratings[i].brokerage)
  {
    if ratings != [] {
      var rs := RatingRecords(ratings);
      KeysFacts();
      ColumnsOfUniform(rs, RatingKeys());
      assert HasKey(rs, DATE) && HasKey(rs, SYMBOL) && HasKey(rs, BROKERAGE) by {
        assert DATE in Keys(rs[0]) && SYMBOL in Keys(rs[0]) && BROKERAGE in Keys(rs[0]);
      }
      assert !HasKey(rs, UID);
      forall i | 0 <= i < |ratings|
        ensures Uid(rs[i], floatText) == ratings[i].date + "_" + ratings[i].symbol + "_" + ratings[i].brokerage
      {
        FieldsLookup(ratings[i]);
      }
    }
  }

  lemma KeysFacts()
    ensures Distinct(RatingKeys())
    ensures DATE in RatingKeys() && SYMBOL in RatingKeys() && BROKERAGE in RatingKeys()
    ensures UID !in RatingKeys()
    ensures [UID] + Without(RatingKeys(), DROPPED) == RatingColumns()
  {
    KeysDistinct();
    KeysWithoutCode();
  }

  lemma KeysDistinct()
    ensures Distinct(RatingKeys())
  {
  }

  lemma KeysWithoutCode()
    ensures [UID] + Without(RatingKeys(), DROPPED) == RatingColumns()
  {
    var front := ["symbol", "date", "exchange", "action", "brokerage"];
    var back := ["analyst", "price_target", "rating", "rating_code"];
    assert RatingKeys() == front + [DROPPED] + back;
    assert RatingColumns() == [UID] + (front + back);
    assert DROPPED !in front && DROPPED !in back;
    ColumnsBetween(RatingKeys(), front, back, RatingColumns());
  }

  lemma ColumnsBetween(keys: seq<string>, front: seq<string>, back: seq<string>, cols: seq<string>)
    requires keys == front + [DROPPED] + back && cols == [UID] + (front + back)
    requires DROPPED !in front && DROPPED !in back
    ensures [UID] + Without(keys, DROPPED) == cols
  {
    WithoutBetween(front, DROPPED, back);
  }

  lemma FieldsLookup(r: Rating)
    ensures Lookup(Fields(r), DATE) == Str(r.date)
    ensures Lookup(Fields(r), SYMBOL) == Str(r.symbol)
    ensures Lookup(Fields(r), BROKERAGE) == Str(r.brokerage)
    ensures Lookup(Fields(r), "exchange") == Str(r.exchange)
    ensures Lookup(Fields(r), "action") == Str(r.action)
    ensures Lookup(Fields(r), DROPPED) == Str(r.brokerageCode)
    ensures Lookup(Fields(r), "analyst") == AnalystValue(r.analyst)
    ensures Lookup(Fields(r), "price_target") == Real(r.priceTarget)
    ensures Lookup(Fields(r), "rating") == Str(r.rating)
    ensures Lookup(Fields(r), "rating_code") == Int(r.ratingCode)
  {
    FieldSymbol(r);
    FieldDate(r);
    FieldExchange(r);
    FieldBrokerage(r);
    FieldAction(r);
    FieldBrokerageCode(r);
    FieldAnalyst(r);
    FieldPrice(r);
    FieldRating(r);
    FieldRatingCode(r);
  }

  lemma FieldAction(r: Rating)
    ensures Lookup(Fields(r), "action") == Str(r.action)
  {
    assert RatingKeys()[..3] == ["symbol", "date", "exchange"];
    LookupField(r, 3, "action");
  }

  lemma FieldBrokerageCode(r: Rating)
    ensures Lookup(Fields(r), DROPPED) == Str(r.brokerageCode)
  {
    assert RatingKeys()[..5] == ["symbol", "date", "exchange", "action", "brokerage"];
    LookupField(r, 5, DROPPED);
  }

  lemma FieldAnalyst(r: Rating)
    ensures Lookup(Fields(r), "analyst") == AnalystValue(r.analyst)
  {
    assert RatingKeys()[..6] == ["symbol", "date", "exchange", "action", "brokerage", "brokerage_code"];
    LookupField(r, 6, "analyst");
  }

  lemma FieldPrice(r: Rating)
    ensures Lookup(Fields(r), "price_target") == Real(r.priceTarget)
  {
    assert RatingKeys()[..7] == ["symbol", "date", "exchange", "action", "brokerage", "brokerage_code", "analyst"];
    LookupField(r, 7, "price_target");
  }

  lemma FieldRating(r: Rating)
    ensures Lookup(Fields(r), "rating") == Str(r.rating)
  {
    assert RatingKeys()[..8] == ["symbol", "date", "exchange", "action", "brokerage", "brokerage_code", "analyst", "price_target"];
    LookupField(r, 8, "rating");
  }

  lemma FieldRatingCode(r: Rating)
    ensures Lookup(Fields(r), "rating_code") == Int(r.ratingCode)
  {
    assert RatingKeys()[..9] == ["symbol", "date", "exchange", "action", "brokerage", "brokerage_code", "analyst", "price_target", "rating"];
    LookupField(r, 9, "rating_code");
  }

  lemma FieldSymbol(r: Rating)
    ensures Lookup(Fields(r), SYMBOL) == Str(r.symbol)
  {
    assert RatingKeys()[..0] == [];
    LookupField(r, 0, SYMBOL);
  }

  lemma FieldDate(r: Rating)
    ensures Lookup(Fields(r), DATE) == Str(r.date)
  {
    assert RatingKeys()[..1] == ["symbol"];
    LookupField(r, 1, DATE);
  }

  lemma FieldExchange(r: Rating)
    ensures Lookup(Fields(r), "exchange") == Str(r.exchange)
  {
    assert RatingKeys()[..2] == ["symbol", "date"];
    LookupField(r, 2, "exchange");
  }

  lemma FieldBrokerage(r: Rating)
    ensures Lookup(Fields(r), BROKERAGE) == Str(r.brokerage)
  {
    assert RatingKeys()[..4] == ["symbol", "date", "exchange", "action"];
    LookupField(r, 4, BROKERAGE);
  }

  /** The value of a key is that of its first field. */
  lemma LookupField(r: Rating, i: nat, k: string)
    requires i < |RatingKeys()| && RatingKeys()[i] == k && k !in RatingKeys()[..i]
    ensures Lookup(Fields(r), k) == Fields(r)[i].1
  {
    var f := Fields(r);
    assert Keys(f[..i]) == Keys(f)[..i];
  }

  /** Each row of the frame built from ratings holds its rating's date,
      symbol and exchange. */
  lemma RatingsFrameFields(ratings: seq<Rating>, floatText: real -> string, f: Frame)
    requires BuildDataset(RatingRecords(ratings), floatText) == Ok(f)
    ensures |f.rows| == |ratings|
    ensures forall i :: 0 <= i < |ratings| ==>
      && DATE in f.rows[i] && f.rows[i][DATE] == Str(ratings[i].date)
      && SYMBOL in f.rows[i] && f.rows[i][SYMBOL] == Str(ratings[i].symbol)
      && "exchange" in f.rows[i] && f.rows[i]["exchange"] == Str(ratings[i].exchange)
  {
    RatingsDataset(ratings, floatText);
    var rs := RatingRecords(ratings);
    ColumnsNamed();
    forall i | 0 <= i < |ratings|
      ensures DATE in f.rows[i] && f.rows[i][DATE] == Str(ratings[i].date)
      ensures SYMBOL in f.rows[i] && f.rows[i][SYMBOL] == Str(ratings[i].symbol)
      ensures "exchange" in f.rows[i] && f.rows[i]["exchange"] == Str(ratings[i].exchange)
    {
      FieldsLookup(ratings[i]);
    }
  }

  lemma ColumnsNamed()
    ensures SYMBOL in RatingColumns() && DATE in RatingColumns() && "exchange" in RatingColumns()
  {
    var cols := RatingColumns();
    assert cols[1] == SYMBOL;
    assert cols[2] == DATE;
    assert cols[3] == "exchange";
  }

  /** Each row of the frame built from ratings holds the rest of its
      rating's fields: action, brokerage, analyst, price target, rating and
      rating code. */
  lemma RatingsFrameDetails(ratings: seq<Rating>, floatText: real -> string, f: Frame)
    requires BuildDataset(RatingRecords(ratings), floatText) == Ok(f)
    ensures |f.rows| == |ratings|
    ensures forall i :: 0 <= i < |ratings| ==>
      && "action" in f.rows[i] && f.rows[i]["action"] == Str(ratings[i].action)
      && BROKERAGE in f.rows[i] && f.rows[i][BROKERAGE] == Str(ratings[i].brokerage)
      && "analyst" in f.rows[i] && f.rows[i]["analyst"] == AnalystValue(ratings[i].analyst)
    ensures forall i :: 0 <= i < |ratings| ==>
      && "price_target" in f.rows[i] && f.rows[i]["price_target"] == Real(ratings[i].priceTarget)
      && "rating" in f.rows[i] && f.rows[i]["rating"] == Str(ratings[i].rating)
      && "rating_code" in f.rows[i] && f.rows[i]["rating_code"] == Int(ratings[i].ratingCode)
  {
    RatingsDataset(ratings, floatText);
    ColumnsDetailed();
    forall i | 0 <= i < |ratings|
      ensures "action" in f.rows[i] && f.rows[i]["action"] == Str(ratings[i].action)
      ensures BROKERAGE in f.rows[i] && f.rows[i][BROKERAGE] == Str(ratings[i].brokerage)
      ensures "analyst" in f.rows[i] && f.rows[i]["analyst"] == AnalystValue(ratings[i].analyst)
      ensures "price_target" in f.rows[i] && f.rows[i]["price_target"] == Real(ratings[i].priceTarget)
      ensures "rating" in f.rows[i] && f.rows[i]["rating"] == Str(ratings[i].rating)
      ensures "rating_code" in f.rows[i] && f.rows[i]["rating_code"] == Int(ratings[i].ratingCode)
    {
      FieldsLookup(ratings[i]);
    }
  }

  lemma ColumnsDetailed()
    ensures "action" in RatingColumns() && BROKERAGE in RatingColumns() && "analyst" in RatingColumns()
    ensures "price_target" in RatingColumns() && "rating" in RatingColumns() && "rating_code" in RatingColumns()
  {
    var cols := RatingColumns();
    assert cols[4] == "action";
    assert cols[5] == BROKERAGE;
    assert cols[6] == "analyst";
    assert cols[7] == "price_target";
    assert cols[8] == "rating";
    assert cols[9] == "rating_code";
  }
}

=== FILE: tables.dfy ===
/** `readTable` over an abstract page: the elements of the parsed page in
    document order, the choice of the table, the in-place removal of the
    advertisement rows and the extraction of header and data cells. */
module Tables {
  import opened Results
  import opened Text
  import opened Cells

  /** The class marking a table row as an advertisement. */
  const AD_CLASS: string := "bottom-sort"

  /** A `<tr>`: its classes, its `<th>` cells and its `<td>` cells, each kind
      in document order. */
  datatype TRow = TRow(classes: seq<string>, heads: seq<Cell>, data: seq<Cell>)

  /** A `<table>`: the rows of its `<thead>` and of its `<tbody>`, when it has one. */
  datatype Table = Table(thead: Option<seq<TRow>>, tbody: Option<seq<TRow>>)

  /** The elements of a page the workflows look at. `str` is the tag's single
      string (bs4's `.string`), None when the tag holds more than one child. */
  datatype Element =
    | Heading(str: Option<string>)
    | Division(str: Option<string>)
    | TableElement(table: Table)

  /** What `readTable` returns: the header cells, the data cells of each body
      row, and the indices of the rows it reports as having a different
      number of cells than there are headers. */
  datatype TableData = TableData(headers: seq<Cell>, data: seq<seq<Cell>>, reported: seq<nat>)

  // ------------------------------------------------------------- locating

  predicate IsTable(e: Element) {
    e.TableElement?
  }

  /** An `<h2>` whose string the pattern `.*hint.*` finds, i.e. which contains
      `hint`, with case. */
  predicate IsHeadingWith(e: Element, hint: string): (b: bool)
    ensures b <==> e.Heading? && e.str.Some? && exists i :: OccursAt(e.str.value, hint, i)
  {
    e.Heading? && e.str.Some? && Contains(e.str.value, hint)
  }

  /** `findNext("table")` from position `from`: the first table at or after it. */
  function FirstTable(es: seq<Element>, from: nat): (r: Option<nat>)
    requires from <= |es|
    ensures r.Some? ==> from <= r.value < |es| && IsTable(es[r.value])
    ensures r.Some? ==> forall j :: from <= j < r.value ==> !IsTable(es[j])
    ensures r.None? ==> forall j :: from <= j < |es| ==> !IsTable(es[j])
    decreases |es| - from
  {
    if from == |es| then None
    else if IsTable(es[from]) then Some(from)
    else FirstTable(es, from + 1)
  }

  /** `find("h2", string=...)`: the first heading containing `hint`. */
  function FirstHeading(es: seq<Element>, hint: string, from: nat): (r: Option<nat>)
    requires from <= |es|
    ensures r.Some? ==> from <= r.value < |es| && IsHeadingWith(es[r.value], hint)
    ensures r.Some? ==> forall j :: from <= j < r.value ==> !IsHeadingWith(es[j], hint)
    ensures r.None? ==> forall j :: from <= j < |es| ==> !IsHeadingWith(es[j], hint)
    decreases |es| - from
  {
    if from == |es| then None
    else if IsHeadingWith(es[from], hint) then Some(from)
    else FirstHeading(es, hint, from + 1)
  }

  /** The position of the table `readTable` works on: the first table, or with
      a hint the first table after the first heading containing the hint.
      Calling a method on the None that `find` returns is an AttributeError. */
  function Locate(es: seq<Element>, hint: Option<string>): (r: Result<nat>)
    ensures r.Ok? ==> r.value < |es| && IsTable(es[r.value])
    ensures r.Err? ==> r.error == AttributeError
    ensures hint.None? ==>
      (r.Ok? <==> exists j :: 0 <= j < |es| && IsTable(es[j]))
    ensures hint.None? && r.Ok? ==> forall j :: 0 <= j < r.value ==> !IsTable(es[j])
    ensures hint.Some? && r.Ok? ==>
      exists h :: 0 <= h < r.value && IsHeadingWith(es[h], hint.value)
        && (forall j :: 0 <= j < h ==> !IsHeadingWith(es[j], hint.value))
        && (forall j :: h < j < r.value ==> !IsTable(es[j]))
    ensures hint.Some? && (forall j :: 0 <= j < |es| ==> !IsHeadingWith(es[j], hint.value)) ==> r.Err?
  {
    match hint
    case None =>
      (match FirstTable(es, 0)
       case Some(i) => Ok(i)
       case None => Err(AttributeError))
    case Some(wanted) =>
      match FirstHeading(es, wanted, 0)
      case None => Err(AttributeError)
      case Some(h) =>
        match FirstTable(es, h + 1)
        case Some(i) => Ok(i)
        case None => Err(AttributeError)
  }

  /** With a hint, a table preceded by a matching heading and nothing else
      that matches or is a table in between is the one chosen. */
  lemma LocateAfterHeading(es: seq<Element>, hint: string, h: nat, i: nat)
    requires h < i < |es| && IsHeadingWith(es[h], hint) && IsTable(es[i])
    requires forall j :: 0 <= j < h ==> !IsHeadingWith(es[j], hint)
    requires forall j :: h < j < i ==> !IsTable(es[j])
    ensures Locate(es, Some(hint)) == Ok(i)
  {
    FirstHeadingIs(es, hint, 0, h);
    FirstTableIs(es, h + 1, i);
  }

  lemma {:induction false} FirstTableIs(es: seq<Element>, from: nat, i: nat)
    requires from <= i < |es| && IsTable(es[i])
    requires forall j :: from <= j < i ==> !IsTable(es[j])
    ensures FirstTable(es, from) == Some(i)
    decreases i - from
  {
    if from < i {
      FirstTableIs(es, from + 1, i);
    }
  }

  lemma {:induction false} FirstHeadingIs(es: seq<Element>, hint: string, from: nat, h: nat)
    requires from <= h < |es| && IsHeadingWith(es[h], hint)
    requires forall j :: from <= j < h ==> !IsHeadingWith(es[j], hint)
    ensures FirstHeading(es, hint, from) == Some(h)
    decreases h - from
  {
    if from < h {
      FirstHeadingIs(es, hint, from + 1, h);
    }
  }

  /** A heading mentioning the hint with a different case does not count. */
  lemma LocateCaseSensitive()
    ensures Locate([Heading(Some("ratings history")), TableElement(Table(None, None))], Some("Ratings History")).Err?
  {
    var es := [Heading(Some("ratings history")), TableElement(Table(None, None))];
    var text, hint := "ratings history", "Ratings History";
    assert text[..|hint|] != hint by {
      assert text[..|hint|][0] != hint[0];
    }
    assert forall i :: OccursAt(text, hint, i) ==> i == 0;
    assert !Contains(text, hint);
  }

  // ----------------------------------------------------- advertisement rows

  predicate IsAd(row: TRow) {
    AD_CLASS in row.classes
  }

  /** The rows left once the advertisements are gone, in their order. */
  function NonAds(rows: seq<TRow>): (r: seq<TRow>)
    ensures |r| <= |rows|
  {
    if rows == [] then []
    else
      var last := rows[|rows| - 1];
      NonAds(rows[..|rows| - 1]) + (if IsAd(last) then [] else [last])
  }

  /** No advertisement is left ... */
  lemma {:induction false} NonAdsHasNoAd(rows: seq<TRow>)
    ensures forall r :: r in NonAds(rows) ==> !IsAd(r)
  {
    if rows != [] {
      NonAdsHasNoAd(rows[..|rows| - 1]);
    }
  }

  /** ... every other row is kept ... */
  lemma {:induction false} NonAdsKeepsRows(rows: seq<TRow>)
    ensures forall r :: r in rows && !IsAd(r) ==> r in NonAds(rows)
    ensures forall r :: r in NonAds(rows) ==> r in rows
  {
    if rows != [] {
      var init := rows[..|rows| - 1];
      NonAdsKeepsRows(init);
      assert rows == init + [rows[|rows| - 1]];
    }
  }

  /** ... and the order is that of the page: filtering commutes with
      concatenation. */
  lemma {:induction false} NonAdsAppend(a: seq<TRow>, b: seq<TRow>)
    ensures NonAds(a + b) == NonAds(a) + NonAds(b)
    decreases |b|
  {
    if b == [] {
      assert a + b == a;
    } else {
      var init := b[..|b| - 1];
      assert (a + b)[..|a + b| - 1] == a + init;
      NonAdsAppend(a, init);
    }
  }

  /** Removing the advertisements twice removes nothing more. */
  lemma {:induction false} NonAdsIdempotent(rows: seq<TRow>)
    ensures NonAds(NonAds(rows)) == NonAds(rows)
  {
    if rows != [] {
      var init := rows[..|rows| - 1];
      var last := rows[|rows| - 1];
      NonAdsIdempotent(init);
      NonAdsAppend(NonAds(init), if IsAd(last) then [] else [last]);
      if !IsAd(last) {
        assert NonAds([last]) == NonAds([]) + [last] by {
          assert [last][..0] == [];
        }
      }
    }
  }

  /** The rows of `rows` not marked as advertisements, collected row by row
      (the `decompose` loop, seen from the rows that remain). */
  method DropAdRows(rows: seq<TRow>) returns (kept: seq<TRow>)
    ensures kept == NonAds(rows)
  {
    kept := [];
    var i := 0;
    while i < |rows|
      invariant 0 <= i <= |rows|
      invariant kept == NonAds(rows[..i])
    {
      assert rows[..i + 1][..i] == rows[..i];
      if !IsAd(rows[i]) {
        kept := kept + [rows[i]];
      }
      i := i + 1;
    }
    assert rows[..i] == rows;
  }

  /** A table with its advertisement rows removed from head and body. */
  function Clean(t: Table): (r: Table)
    ensures r.thead.Some? <==> t.thead.Some?
    ensures r.tbody.Some? <==> t.tbody.Some?
  {
    Table(
      if t.thead.Some? then Some(NonAds(t.thead.value)) else None,
      if t.tbody.Some? then Some(NonAds(t.tbody.value)) else None)
  }

  // ----------------------------------------------------------------- cells

  /** `thead.find_all("th")`: the header cells of all head rows, in order. */
  function Headers(rows: seq<TRow>): seq<Cell> {
    if rows == [] then [] else Headers(rows[..|rows| - 1]) + rows[|rows| - 1].heads
  }

  lemma {:induction false} HeadersAppend(a: seq<TRow>, b: seq<TRow>)
    ensures Headers(a + b) == Headers(a) + Headers(b)
    decreases |b|
  {
    if b == [] {
      assert a + b == a;
    } else {
      var init := b[..|b| - 1];
      assert (a + b)[..|a + b| - 1] == a + init;
      HeadersAppend(a, init);
    }
  }

  method HeaderCells(rows: seq<TRow>) returns (headers: seq<Cell>)
    ensures headers == Headers(rows)
  {
    headers := [];
    var i := 0;
    while i < |rows|
      invariant 0 <= i <= |rows|
      invariant headers == Headers(rows[..i])
    {
      assert rows[..i + 1][..i] == rows[..i];
      headers := headers + rows[i].heads;
      i := i + 1;
    }
    assert rows[..i] == rows;
  }

  /** The loop over `tbody.find_all("tr")`: the `<td>` cells of each row. */
  method DataCells(rows: seq<TRow>) returns (data: seq<seq<Cell>>)
    ensures |data| == |rows|
    ensures forall i :: 0 <= i < |rows| ==> data[i] == rows[i].data
  {
    data := [];
    var i := 0;
    while i < |rows|
      invariant 0 <= i <= |rows|
      invariant |data| == i
      invariant forall j :: 0 <= j < i ==> data[j] == rows[j].data
    {
      data := data + [rows[i].data];
      i := i + 1;
    }
  }

  /** The indices `readTable` reports: the rows whose length differs from
      the number of headers, in increasing order. */
  function Mismatches(headerCount: nat, data: seq<seq<Cell>>): (ks: seq<nat>)
    ensures forall k: nat :: k in ks <==> k < |data| && |data[k]| != headerCount
    ensures forall a, b :: 0 <= a < b < |ks| ==> ks[a] < ks[b]
  {
    if data == [] then []
    else
      var last := |data| - 1;
      var init := Mismatches(headerCount, data[..last]);
      forall a | 0 <= a < |init| ensures init[a] < last {
        assert init[a] in init;
        assert init[a] < |data[..last]|;
      }
      if |data[last]| != headerCount then init + [last] else init
  }

  /** The consistency loop. The rows it finds are only reported (printed),
      never dropped. */
  method MismatchedRows(headerCount: nat, data: seq<seq<Cell>>) returns (reported: seq<nat>)
    ensures reported == Mismatches(headerCount, data)
  {
    reported := [];
    var i := 0;
    while i < |data|
      invariant 0 <= i <= |data|
      invariant reported == Mismatches(headerCount, data[..i])
    {
      assert data[..i + 1][..i] == data[..i];
      if |data[i]| != headerCount {
        reported := reported + [i];
      }
      i := i + 1;
    }
    assert data[..i] == data;
  }

  /** The cells of each body row, in order. */
  function BodyData(rows: seq<TRow>): seq<seq<Cell>> {
    seq(|rows|, k requires 0 <= k < |rows| => rows[k].data)
  }

  /** What `readTable` returns for the table it located: header and data
      cells of the rows that are no advertisements, or AttributeError when
      the table has no head or no body. */
  function TableDataOf(t: Table): (r: Result<TableData>)
    ensures r.Ok? <==> t.thead.Some? && t.tbody.Some?
    ensures r.Err? ==> r.error == AttributeError
    ensures r.Ok? ==>
      && r.value.headers == Headers(NonAds(t.thead.value))
      && |r.value.data| == |NonAds(t.tbody.value)|
      && (forall k :: 0 <= k < |r.value.data| ==> r.value.data[k] == NonAds(t.tbody.value)[k].data)
      && (forall k: nat :: k in r.value.reported <==>
            k < |r.value.data| && |r.value.data[k]| != |r.value.headers|)
  {
    if t.thead.None? || t.tbody.None? then Err(AttributeError)
    else
      var headers := Headers(NonAds(t.thead.value));
      var data := BodyData(NonAds(t.tbody.value));
      Ok(TableData(headers, data, Mismatches(|headers|, data)))
  }

  /** The result of `readTable` on a page. */
  function ReadResult(es: seq<Element>, hint: Option<string>): (r: Result<TableData>)
    ensures r.Err? ==> r.error == AttributeError
    ensures hint.None? && (forall j :: 0 <= j < |es| ==> !IsTable(es[j])) ==> r == Err(AttributeError)
    ensures r.Ok? ==> exists i :: 0 <= i < |es| && IsTable(es[i]) && TableDataOf(es[i].table) == r
  {
    var i :- Locate(es, hint);
    TableDataOf(es[i].table)
  }

  /** The page once `readTable` has run: the located table has lost its
      advertisement rows; nothing else changes. */
  function AfterRead(es: seq<Element>, hint: Option<string>): (r: seq<Element>)
    ensures |r| == |es|
    ensures forall j :: 0 <= j < |es| && !IsTable(es[j]) ==> r[j] == es[j]
    ensures forall j :: 0 <= j < |es| ==> IsTable(r[j]) == IsTable(es[j])
  {
    match Locate(es, hint)
    case Ok(i) => es[i := TableElement(Clean(es[i].table))]
    case Err(_) => es
  }

  // ------------------------------------------------------------------ page

  /** A parsed page. `ReadTable` changes it: the advertisement rows of the
      table it reads are decomposed, as bs4 does in the tree. */
  class Page {
    var elements: seq<Element>

    constructor(elements: seq<Element>)
      ensures this.elements == elements
    {
      this.elements := elements;
    }

    /** `readTable`: locate the table, remove its advertisement rows in place,
        then collect the header cells and the data cells of every body row;
        rows whose length differs from the header count are reported and kept.
        A missing table, heading, head or body is an AttributeError; a missing
        head or body is only noticed after the advertisements are removed. */
    method ReadTable(hint: Option<string>) returns (r: Result<TableData>)
      modifies this
      ensures r == ReadResult(old(elements), hint)
      ensures elements == AfterRead(old(elements), hint)
    {
      var loc := Locate(elements, hint);
      if loc.Err? {
        return Err(AttributeError);
      }
      var i := loc.value;
      var t := elements[i].table;
      var head := t.thead;
      if head.Some? {
        var kept := DropAdRows(head.value);
        head := Some(kept);
      }
      var body := t.tbody;
      if body.Some? {
        var kept := DropAdRows(body.value);
        body := Some(kept);
      }
      elements := elements[i := TableElement(Table(head, body))];
      if head.None? || body.None? {
        return Err(AttributeError);
      }
      var headers := HeaderCells(head.value);
      var data := DataCells(body.value);
      assert data == BodyData(body.value);
      var reported := MismatchedRows(|headers|, data);
      return Ok(TableData(headers, data, reported));
    }
  }

  /** No data row of the result comes from an advertisement row, and each
      one is a body row of the located table. */
  lemma ReadRowsAreNonAds(es: seq<Element>, hint: Option<string>)
    requires ReadResult(es, hint).Ok?
    ensures var i := Locate(es, hint).value;
      var data := ReadResult(es, hint).value.data;
      forall k :: 0 <= k < |data| ==>
        exists row :: row in es[i].table.tbody.value && !IsAd(row) && data[k] == row.data
  {
    var i := Locate(es, hint).value;
    var body := es[i].table.tbody.value;
    var data := ReadResult(es, hint).value.data;
    var kept := NonAds(body);
    NonAdsHasNoAd(body);
    NonAdsKeepsRows(body);
    forall k | 0 <= k < |data|
      ensures exists row :: row in body && !IsAd(row) && data[k] == row.data
    {
      assert kept[k] in kept;
    }
  }

  /** Pages that agree on every heading and on which elements are tables
      locate the same table. */
  lemma LocateSameShape(es: seq<Element>, fs: seq<Element>, hint: Option<string>)
    requires |es| == |fs|
    requires forall j :: 0 <= j < |es| ==> IsTable(fs[j]) == IsTable(es[j])
    requires forall j :: 0 <= j < |es| && !IsTable(es[j]) ==> fs[j] == es[j]
    ensures Locate(fs, hint) == Locate(es, hint)
  {
    match hint
    case None =>
      FirstTableSame(es, fs, 0);
    case Some(wanted) =>
      FirstHeadingSame(es, fs, wanted, 0);
      var h := FirstHeading(es, wanted, 0);
      if h.Some? {
        FirstTableSame(es, fs, h.value + 1);
      }
  }

  lemma {:induction false} FirstTableSame(es: seq<Element>, fs: seq<Element>, from: nat)
    requires from <= |es| == |fs|
    requires forall j :: 0 <= j < |es| ==> IsTable(fs[j]) == IsTable(es[j])
    ensures FirstTable(fs, from) == FirstTable(es, from)
    decreases |es| - from
  {
    if from < |es| {
      FirstTableSame(es, fs, from + 1);
    }
  }

  lemma {:induction false} FirstHeadingSame(es: seq<Element>, fs: seq<Element>, hint: string, from: nat)
    requires from <= |es| == |fs|
    requires forall j :: 0 <= j < |es| ==> IsTable(fs[j]) == IsTable(es[j])
    requires forall j :: 0 <= j < |es| && !IsTable(es[j]) ==> fs[j] == es[j]
    ensures FirstHeading(fs, hint, from) == FirstHeading(es, hint, from)
    decreases |es| - from
  {
    if from < |es| {
      FirstHeadingSame(es, fs, hint, from + 1);
    }
  }

  /** Reading the same table again finds no advertisement left to remove and
      returns the same cells: `readTable` is idempotent on a page. */
  lemma ReadTwice(es: seq<Element>, hint: Option<string>)
    ensures ReadResult(AfterRead(es, hint), hint) == ReadResult(es, hint)
    ensures AfterRead(AfterRead(es, hint), hint) == AfterRead(es, hint)
  {
    var fs := AfterRead(es, hint);
    LocateSameShape(es, fs, hint);
    var loc := Locate(es, hint);
    if loc.Ok? {
      var t := es[loc.value].table;
      assert fs[loc.value].table == Clean(t);
      if t.thead.Some? {
        NonAdsIdempotent(t.thead.value);
      }
      if t.tbody.Some? {
        NonAdsIdempotent(t.tbody.value);
      }
      assert Clean(Clean(t)) == Clean(t);
    }
  }
}

=== FILE: text.dfy ===
/** The Python string operations the parsers use: `str.strip()`,
    `str.split(sep)`, `str.replace(old, "")` and substring search. */
module Text {

  /** Python's `str.isspace()`: the characters `str.strip()` removes. */
  predicate IsSpace(c: char) {
    || c == ' '
    || '\t' <= c <= '\r'
    || '\U{1C}' <= c <= '\U{1F}'
    || c == '\U{85}' || c == '\U{A0}' || c == '\U{1680}'
    || '\U{2000}' <= c <= '\U{200A}'
    || c == '\U{2028}' || c == '\U{2029}' || c == '\U{202F}' || c == '\U{205F}' || c == '\U{3000}'
  }

  /** Length of the longest prefix of `s` whose characters all satisfy `p`. */
  function LeadingRun(s: string, p: char -> bool): (n: nat)
    ensures n <= |s|
    ensures forall i :: 0 <= i < n ==> p(s[i])
    ensures n < |s| ==> !p(s[n])
  {
    if s == [] || !p(s[0]) then 0 else 1 + LeadingRun(s[1..], p)
  }

  /** Length of the longest suffix of `s` whose characters all satisfy `p`. */
  function TrailingRun(s: string, p: char -> bool): (n: nat)
    ensures n <= |s|
    ensures forall i :: |s| - n <= i < |s| ==> p(s[i])
    ensures n < |s| ==> !p(s[|s| - 1 - n])
  {
    if s == [] || !p(s[|s| - 1]) then 0 else 1 + TrailingRun(s[..|s| - 1], p)
  }

  /** The run is determined by where the first character failing `p` sits. */
  lemma LeadingRunOf(a: string, b: string, p: char -> bool)
    requires forall i :: 0 <= i < |a| ==> p(a[i])
    requires b != [] ==> !p(b[0])
    ensures LeadingRun(a + b, p) == |a|
  {
    assert b != [] ==> (a + b)[|a|] == b[0];
  }

  lemma TrailingRunOf(a: string, b: string, p: char -> bool)
    requires forall i :: 0 <= i < |b| ==> p(b[i])
    requires a != [] ==> !p(a[|a| - 1])
    ensures TrailingRun(a + b, p) == |b|
  {
    var s := a + b;
    assert a != [] ==> s[|s| - 1 - |b|] == a[|a| - 1];
  }

  predicate AllSpace(s: string) {
    forall i :: 0 <= i < |s| ==> IsSpace(s[i])
  }

  /** A string with no whitespace at either end (the empty string included). */
  predicate Trimmed(s: string) {
    s != [] ==> !IsSpace(s[0]) && !IsSpace(s[|s| - 1])
  }

  /** Python's `s.strip()`: drop leading and trailing whitespace. */
  function Strip(s: string): (r: string)
    ensures Trimmed(r)
    ensures |r| <= |s|
    ensures r == [] <==> AllSpace(s)
  {
    var t := s[LeadingRun(s, IsSpace)..];
    var r := t[..|t| - TrailingRun(t, IsSpace)];
    assert r != [] ==> r[0] == t[0];
    assert AllSpace(s) ==> LeadingRun(s, IsSpace) == |s|;
    r
  }

  /** Whitespace around a trimmed text is exactly what `Strip` removes. */
  lemma {:induction false} StripOf(a: string, t: string, b: string)
    requires AllSpace(a) && AllSpace(b) && Trimmed(t)
    ensures Strip(a + t + b) == t
  {
    var s := a + t + b;
    if t == [] {
      assert s == a + b;
      LeadingRunOf(a + b, [], IsSpace);
      assert s[|s|..] == [];
    } else {
      assert s == a + (t + b);
      LeadingRunOf(a, t + b, IsSpace);
      assert s[|a|..] == t + b;
      TrailingRunOf(t, b, IsSpace);
      assert (t + b)[..|t|] == t;
    }
  }

  /** A trimmed text is left as it is. */
  lemma StripTrimmed(t: string)
    requires Trimmed(t)
    ensures Strip(t) == t
  {
    assert [] + t + [] == t;
    StripOf([], t, []);
  }

  lemma StripIdempotent(s: string)
    ensures Strip(Strip(s)) == Strip(s)
  {
    StripTrimmed(Strip(s));
  }

  /** Python's `s.split(sep)` for a one-character separator: the pieces between
      separators, always at least one. */
  function Split(s: string, sep: char): (parts: seq<string>)
    ensures |parts| >= 1
  {
    if s == [] then [[]]
    else
      var rest := Split(s[1..], sep);
      if s[0] == sep then [[]] + rest else [[s[0]] + rest[0]] + rest[1..]
  }

  /** Python's `sep.join(parts)`. */
  function Join(parts: seq<string>, sep: char): string {
    if parts == [] then []
    else if |parts| == 1 then parts[0]
    else parts[0] + [sep] + Join(parts[1..], sep)
  }

  function Last<T>(xs: seq<T>): T
    requires xs != []
  {
    xs[|xs| - 1]
  }

  /** Joining the pieces back with the separator gives the original text. */
  lemma {:induction false} JoinSplit(s: string, sep: char)
    ensures Join(Split(s, sep), sep) == s
  {
    if s != [] {
      var rest := Split(s[1..], sep);
      JoinSplit(s[1..], sep);
      if s[0] == sep {
        assert Split(s, sep) == [[]] + rest;
        assert s == [sep] + s[1..];
      } else if |rest| == 1 {
        assert s == [s[0]] + s[1..];
      } else {
        var parts := Split(s, sep);
        assert parts[1..] == rest[1..];
        assert s == [s[0]] + s[1..];
      }
    }
  }

  /** No piece contains the separator. */
  lemma {:induction false} SplitPieces(s: string, sep: char)
    ensures forall p :: p in Split(s, sep) ==> sep !in p
  {
    if s != [] {
      SplitPieces(s[1..], sep);
      var rest := Split(s[1..], sep);
      if s[0] != sep {
        assert sep !in rest[0];
        var parts := Split(s, sep);
        forall p | p in parts ensures sep !in p {
          if p != parts[0] {
            assert p in rest[1..];
          }
        }
      }
    }
  }

  /** There is one more piece than there are separators. */
  lemma {:induction false} SplitCount(s: string, sep: char)
    ensures |Split(s, sep)| == multiset(s)[sep] + 1
  {
    if s != [] {
      SplitCount(s[1..], sep);
      assert s == [s[0]] + s[1..];
      assert multiset(s) == multiset([s[0]]) + multiset(s[1..]);
    }
  }

  /** Text before the first separator becomes the first piece. */
  lemma {:induction false} SplitAt(a: string, sep: char, b: string)
    requires sep !in a
    ensures Split(a + [sep] + b, sep) == [a] + Split(b, sep)
  {
    var s := a + [sep] + b;
    if a == [] {
      assert s[1..] == b;
    } else {
      assert s[1..] == a[1..] + [sep] + b;
      SplitAt(a[1..], sep, b);
      assert [a[0]] + a[1..] == a;
    }
  }

  lemma {:induction false} SplitNone(s: string, sep: char)
    requires sep !in s
    ensures Split(s, sep) == [s]
  {
    if s != [] {
      SplitNone(s[1..], sep);
      assert [s[0]] + s[1..] == s;
    }
  }

  lemma SplitThree(s: string, a: string, b: string, c: string, sep: char)
    requires s == a + [sep] + b + [sep] + c
    requires sep !in a && sep !in b && sep !in c
    ensures Split(s, sep) == [a, b, c]
  {
    assert s == a + [sep] + (b + [sep] + c);
    SplitAt(a, sep, b + [sep] + c);
    SplitAt(b, sep, c);
    SplitNone(c, sep);
  }

  /** The third piece of "<sep>a<sep>b<sep>rest" is b. */
  lemma SplitThird(s: string, a: string, b: string, rest: string, sep: char)
    requires s == [sep] + a + [sep] + b + [sep] + rest
    requires sep !in a && sep !in b
    ensures |Split(s, sep)| >= 3 && Split(s, sep)[2] == b
  {
    var t2 := b + [sep] + rest;
    var t1 := a + [sep] + t2;
    assert s == [] + [sep] + t1;
    SplitAt([], sep, t1);
    SplitAt(a, sep, t2);
    SplitAt(b, sep, rest);
  }

  /** Whatever precedes a separator has no influence on the last piece. */
  lemma {:induction false} LastPieceAfter(a: string, sep: char, b: string)
    ensures Last(Split(a + [sep] + b, sep)) == Last(Split(b, sep))
  {
    var s := a + [sep] + b;
    if a == [] {
      assert s[1..] == b;
    } else {
      assert s[1..] == a[1..] + [sep] + b;
      LastPieceAfter(a[1..], sep, b);
      var rest := Split(s[1..], sep);
      if s[0] != sep {
        SplitCount(s[1..], sep);
        assert s[1..][|a| - 1] == sep;
        assert |rest| >= 2;
      }
    }
  }

  /** `s.split(sep)[-1]` is the text after the last separator. */
  lemma LastPieceIs(a: string, sep: char, b: string)
    requires sep !in b
    ensures Last(Split(a + [sep] + b, sep)) == b
  {
    LastPieceAfter(a, sep, b);
    SplitNone(b, sep);
  }

  /** Python's `s.replace(c, "")` for one character `c`. */
  function RemoveChar(s: string, c: char): (r: string)
    ensures c !in r
    ensures |r| == |s| - multiset(s)[c]
  {
    if s == [] then []
    else
      assert s == [s[0]] + s[1..];
      assert multiset(s) == multiset([s[0]]) + multiset(s[1..]);
      (if s[0] == c then [] else [s[0]]) + RemoveChar(s[1..], c)
  }

  lemma {:induction false} RemoveCharAbsent(s: string, c: char)
    requires c !in s
    ensures RemoveChar(s, c) == s
  {
    if s != [] {
      RemoveCharAbsent(s[1..], c);
      assert [s[0]] + s[1..] == s;
    }
  }

  lemma {:induction false} RemoveCharAppend(a: string, b: string, c: char)
    ensures RemoveChar(a + b, c) == RemoveChar(a, c) + RemoveChar(b, c)
  {
    if a != [] {
      var s := a + b;
      var h := if a[0] == c then [] else [a[0]];
      assert s[0] == a[0];
      assert s[1..] == a[1..] + b;
      assert RemoveChar(s, c) == h + RemoveChar(a[1..] + b, c);
      assert RemoveChar(a, c) == h + RemoveChar(a[1..], c);
      RemoveCharAppend(a[1..], b, c);
      assert h + (RemoveChar(a[1..], c) + RemoveChar(b, c)) == (h + RemoveChar(a[1..], c)) + RemoveChar(b, c);
    } else {
      assert a + b == b;
    }
  }

  /** Every character other than `c` survives the removal. */
  lemma {:induction false} RemoveCharKeeps(s: string, c: char, i: nat)
    requires i < |s| && s[i] != c
    ensures s[i] in RemoveChar(s, c)
  {
    if i > 0 {
      RemoveCharKeeps(s[1..], c, i - 1);
    }
  }

  /** The removal adds no character. */
  lemma {:induction false} RemoveCharFrom(s: string, c: char)
    ensures forall x :: x in RemoveChar(s, c) ==> x in s
  {
    if s != [] {
      RemoveCharFrom(s[1..], c);
    }
  }

  /** `pat` occurs in `s` at position `i`. */
  predicate OccursAt(s: string, pat: string, i: int) {
    0 <= i && i + |pat| <= |s| && s[i..i + |pat|] == pat
  }

  /** Substring containment, `pat in s` in Python. */
  function Contains(s: string, pat: string): (r: bool)
    ensures r <==> exists i :: OccursAt(s, pat, i)
  {
    if |s| < |pat| then false
    else if s[..|pat|] == pat then
      assert OccursAt(s, pat, 0);
      true
    else
      ContainsStep(s, pat);
      Contains(s[1..], pat)
  }

  /** An occurrence after the first position is an occurrence in the tail. */
  lemma ContainsStep(s: string, pat: string)
    requires |s| >= |pat| && s[..|pat|] != pat
    ensures (exists i :: OccursAt(s, pat, i)) <==> (exists i :: OccursAt(s[1..], pat, i))
  {
    if i :| OccursAt(s, pat, i) {
      assert i != 0;
      assert s[1..][i - 1..i - 1 + |pat|] == s[i..i + |pat|];
      assert OccursAt(s[1..], pat, i - 1);
    }
    if i :| OccursAt(s[1..], pat, i) {
      assert s[1..][i..i + |pat|] == s[i + 1..i + 1 + |pat|];
      assert OccursAt(s, pat, i + 1);
    }
  }

  /** Python's `s.replace(pat, "")`: delete the occurrences of `pat` found by
      a left-to-right scan, which do not overlap. */
  function RemoveAll(s: string, pat: string): (r: string)
    requires pat != []
    ensures |r| <= |s|
    decreases |s|
  {
    if |s| < |pat| then s
    else if s[..|pat|] == pat then RemoveAll(s[|pat|..], pat)
    else [s[0]] + RemoveAll(s[1..], pat)
  }

  lemma {:induction false} RemoveAllAbsent(s: string, pat: string)
    requires pat != [] && !Contains(s, pat)
    ensures RemoveAll(s, pat) == s
    decreases |s|
  {
    if |s| >= |pat| {
      assert !OccursAt(s, pat, 0);
      ContainsStep(s, pat);
      RemoveAllAbsent(s[1..], pat);
      assert [s[0]] + s[1..] == s;
    }
  }

  /** No proper prefix of `pat` is also a suffix of it. */
  predicate NoBorder(pat: string) {
    forall k :: 0 < k < |pat| ==> pat[..k] != pat[|pat| - k..]
  }

  /** A match of a border-free pattern cannot start inside a text shorter
      than the pattern and end inside the pattern itself. */
  lemma NoMatchAcross(w: string, pat: string)
    requires 0 < |w| < |pat| && NoBorder(pat)
    ensures (w + pat)[..|pat|] != pat
  {
    var k := |pat| - |w|;
    assert (w + pat)[..|pat|][|w|..] == pat[..k];
    assert pat[|w|..] == pat[|pat| - k..];
  }

  /** For a border-free pattern, removing it from `w + pat` leaves `w` when
      `w` holds no occurrence of its own: the scan cannot start a match
      inside `w`. */
  lemma {:induction false} RemoveAllTrailing(w: string, pat: string)
    requires pat != [] && NoBorder(pat) && !Contains(w, pat)
    ensures RemoveAll(w + pat, pat) == w
    decreases |w|
  {
    var s := w + pat;
    if w == [] {
      assert s[..|pat|] == pat;
      assert s[|pat|..] == [];
    } else {
      if |w| >= |pat| {
        assert s[..|pat|] == w[0..|pat|];
        assert !OccursAt(w, pat, 0);
      } else {
        NoMatchAcross(w, pat);
      }
      if |w| >= |pat| {
        assert w[..|pat|] != pat;
        ContainsStep(w, pat);
      } else {
        assert !Contains(w[1..], pat);
      }
      assert s[1..] == w[1..] + pat;
      RemoveAllTrailing(w[1..], pat);
      assert [w[0]] + w[1..] == w;
    }
  }
}

=== FILE: workflows.dfy ===
/** The two entry points: `getDailyRatingsTable`, today's ratings of all
    symbols, and `getSymbolRatingsTable`, the rating history of one symbol.
    Each works on a page already parsed; fetching it is not modelled. */
module Workflows {
  import opened Results
  import opened Text
  import opened Dates
  import opened Cells
  import opened Tables
  import opened Dataset
  import opened Rows

  /** The heading the history table follows. */
  const HISTORY: string := "Ratings History"

  /** The start of the analyst-ratings link of a symbol's main page. */
  const STOCKS: string := "/stocks/"

  // ------------------------------------------------------------- page date

  /** A `<div>` whose single string the date pattern finds. */
  predicate HasDate(e: Element) {
    e.Division? && e.str.Some? && SearchDate(e.str.value).Some?
  }

  /** A division has a date exactly when the pattern matches somewhere in
      its string. */
  lemma HasDateMatches(e: Element)
    ensures HasDate(e) <==> e.Division? && e.str.Some? && exists j :: 0 <= j < |e.str.value| && MatchesAt(e.str.value, j)
  {
    if e.Division? && e.str.Some? {
      SearchDateFinds(e.str.value);
    }
  }

  /** `soup.find("div", string=DATE_RE)`, from position `from` on. */
  function FirstDated(es: seq<Element>, from: nat): (r: Option<nat>)
    requires from <= |es|
    ensures r.Some? ==> from <= r.value < |es| && HasDate(es[r.value])
    ensures r.Some? ==> forall j :: from <= j < r.value ==> !HasDate(es[j])
    ensures r.None? ==> forall j :: from <= j < |es| ==> !HasDate(es[j])
    decreases |es| - from
  {
    if from == |es| then None
    else if HasDate(es[from]) then Some(from)
    else FirstDated(es, from + 1)
  }

  /** The date of the daily page, written `%Y-%m-%d`: the parenthesised date
      of the first division holding one, read with `%m/%d/%Y`; today's date
      when no division holds one. Text of the right shape that is no date
      (a month 13, a 31st of April) is a ValueError. */
  function PageDate(es: seq<Element>, today: Date): (r: Result<string>)
    requires Valid(today)
    ensures (forall j :: 0 <= j < |es| ==> !HasDate(es[j])) ==> r == Ok(IsoText(today))
    ensures r.Ok? ==> exists d :: Valid(d) && r.value == IsoText(d)
    ensures r.Err? ==> r.error == ValueError
  {
    match FirstDated(es, 0)
    case None => Ok(IsoText(today))
    case Some(i) =>
      var d :- ParseUSDate(SearchDate(es[i].str.value).value);
      Ok(IsoText(d))
  }

  lemma {:induction false} FirstDatedIs(es: seq<Element>, from: nat, i: nat)
    requires from <= i < |es| && HasDate(es[i])
    requires forall j :: from <= j < i ==> !HasDate(es[j])
    ensures FirstDated(es, from) == Some(i)
    decreases i - from
  {
    if from < i {
      FirstDatedIs(es, from + 1, i);
    }
  }

  /** A division reading "... (m/d/yyyy) ..." before any other dated one
      gives the page its date, padded or not. */
  lemma PageDateOf(es: seq<Element>, today: Date, i: nat, prefix: string, d: Date, mw: nat, dw: nat, rest: string)
    requires Valid(today) && Valid(d) && 1 <= mw <= 2 && 1 <= dw <= 2
    requires i < |es| && es[i] == Division(Some(prefix + "(" + UsText(d, mw, dw) + ")" + rest))
    requires '(' !in prefix
    requires forall j :: 0 <= j < i ==> !HasDate(es[j])
    ensures PageDate(es, today) == Ok(IsoText(d))
  {
    var g := UsText(d, mw, dw);
    UsTextShape(d, mw, dw);
    SearchDateAfter(prefix, g, rest);
    ParseUsText(d, mw, dw);
    FirstDatedIs(es, 0, i);
  }

  /** A dated division whose date does not exist makes the whole page fail:
      the date is not replaced by today's. */
  lemma PageDateNoSuchDay(es: seq<Element>, today: Date, i: nat, prefix: string, g: string, rest: string)
    requires Valid(today) && DateShape(g) && ParseUSDate(g).Err?
    requires i < |es| && es[i] == Division(Some(prefix + "(" + g + ")" + rest))
    requires '(' !in prefix
    requires forall j :: 0 <= j < i ==> !HasDate(es[j])
    ensures PageDate(es, today) == Err(ValueError)
  {
    SearchDateAfter(prefix, g, rest);
    FirstDatedIs(es, 0, i);
  }

  lemma {:induction false} FirstDatedSame(es: seq<Element>, fs: seq<Element>, from: nat)
    requires from <= |es| == |fs|
    requires forall j :: 0 <= j < |es| && !IsTable(es[j]) ==> fs[j] == es[j]
    requires forall j :: 0 <= j < |es| ==> IsTable(fs[j]) == IsTable(es[j])
    ensures FirstDated(fs, from) == FirstDated(es, from)
    decreases |es| - from
  {
    if from < |es| {
      if IsTable(es[from]) {
        assert !HasDate(es[from]) && !HasDate(fs[from]);
      } else {
        assert fs[from] == es[from];
      }
      FirstDatedSame(es, fs, from + 1);
    }
  }

  /** Reading the table first, as the daily workflow does, does not change
      the date found on the page. */
  lemma PageDateAfterRead(es: seq<Element>, hint: Option<string>, today: Date)
    requires Valid(today)
    ensures PageDate(AfterRead(es, hint), today) == PageDate(es, today)
  {
    FirstDatedSame(es, AfterRead(es, hint), 0);
  }

  // ---------------------------------------------------------- daily ratings

  /** What `getDailyRatingsTable` returns for the ratings page: the first
      table is read (its errors propagate), the page date is taken, every
      row that parses becomes a rating of that date, and the frame is built. */
  function DailyResult(es: seq<Element>, today: Date, floatText: real -> string): (r: Result<Frame>)
    requires Valid(today)
    ensures (forall j :: 0 <= j < |es| ==> !IsTable(es[j])) ==> r == Err(AttributeError)
    ensures r.Err? ==> r.error == AttributeError || r.error == ValueError || r.error == KeyError
  {
    var table :- ReadResult(es, None);
    var date :- PageDate(AfterRead(es, None), today);
    BuildDataset(RatingRecords(DailyParsed(table.data, date)), floatText)
  }

  /** The rows of the ratings table that parse, as ratings of `date`. */
  function DailyParsed(data: seq<seq<Cell>>, date: string): (ratings: seq<Rating>)
    ensures |ratings| <= |data|
    ensures forall r :: r in ratings ==> r.date == date
    ensures (forall k :: 0 <= k < |data| ==> DailyRow(data[k], date).Err?) ==> ratings == []
  {
    var ratings := Survivors(data, row => DailyRow(row, date));
    DailyShareDate(data, date);
    SurvivorsExactly(data, row => DailyRow(row, date));
    assert ratings != [] ==> ratings[0] in ratings;
    ratings
  }

  /** With the table read and the page date known, the daily result is the
      frame of the rows that parse. */
  lemma DailyResultOf(es: seq<Element>, today: Date, floatText: real -> string)
    requires Valid(today) && ReadResult(es, None).Ok? && PageDate(es, today).Ok?
    ensures DailyResult(es, today, floatText) ==
      BuildDataset(RatingRecords(DailyParsed(ReadResult(es, None).value.data, PageDate(es, today).value)), floatText)
  {
    PageDateAfterRead(es, None, today);
  }

  /** `getDailyRatingsTable` on the parsed ratings page; `today` stands for
      the clock. */
  method DailyRatings(page: Page, today: Date, floatText: real -> string) returns (r: Result<Frame>)
    requires Valid(today)
    modifies page
    ensures r == DailyResult(old(page.elements), today, floatText)
    ensures page.elements == AfterRead(old(page.elements), None)
  {
    var table := page.ReadTable(None);
    if table.Err? {
      return Err(table.error);
    }
    var date := PageDate(page.elements, today);
    if date.Err? {
      return Err(date.error);
    }
    var ratings := KeepParsed(table.value.data, row => DailyRow(row, date.value));
    assert ratings == DailyParsed(table.value.data, date.value);
    r := BuildDataset(RatingRecords(ratings), floatText);
  }

  /** The daily frame: the rating columns, one row per parsed table row, each
      of the page date. */
  lemma DailyFrame(es: seq<Element>, today: Date, floatText: real -> string)
    requires Valid(today) && DailyResult(es, today, floatText).Ok?
    ensures ReadResult(es, None).Ok? && PageDate(es, today).Ok?
    ensures var f := DailyResult(es, today, floatText).value;
      && f.columns == RatingColumns()
      && 1 <= |f.rows| <= |ReadResult(es, None).value.data|
      && forall i :: 0 <= i < |f.rows| ==> DATE in f.rows[i] && f.rows[i][DATE] == Str(PageDate(es, today).value)
  {
    PageDateAfterRead(es, None, today);
    var data := ReadResult(es, None).value.data;
    var date := PageDate(es, today).value;
    DailyResultOf(es, today, floatText);
    FrameOfParsed(DailyParsed(data, date), floatText, |data|);
    DatesOfParsed(DailyParsed(data, date), floatText, date);
  }

  /** The frame of `ratings`, when it is built, has the rating columns and
      one row per rating. */
  lemma FrameOfParsed(ratings: seq<Rating>, floatText: real -> string, bound: nat)
    requires |ratings| <= bound && BuildDataset(RatingRecords(ratings), floatText).Ok?
    ensures var f := BuildDataset(RatingRecords(ratings), floatText).value;
      f.columns == RatingColumns() && 1 <= |f.rows| <= bound
  {
    RatingsDataset(ratings, floatText);
  }

  lemma DatesOfParsed(ratings: seq<Rating>, floatText: real -> string, date: string)
    requires forall r :: r in ratings ==> r.date == date
    requires BuildDataset(RatingRecords(ratings), floatText).Ok?
    ensures var f := BuildDataset(RatingRecords(ratings), floatText).value;
      forall i :: 0 <= i < |f.rows| ==> DATE in f.rows[i] && f.rows[i][DATE] == Str(date)
  {
    var f := BuildDataset(RatingRecords(ratings), floatText).value;
    RatingsFrameFields(ratings, floatText, f);
    forall i | 0 <= i < |f.rows| ensures DATE in f.rows[i] && f.rows[i][DATE] == Str(date) {
      assert ratings[i] in ratings;
    }
  }

  /** A ratings table none of whose rows parses gives no empty frame but a
      KeyError: the built frame has no "date" column to select. */
  lemma DailyNothingParsed(es: seq<Element>, today: Date, floatText: real -> string)
    requires Valid(today) && ReadResult(es, None).Ok? && PageDate(es, today).Ok?
    requires forall k :: 0 <= k < |ReadResult(es, None).value.data| ==>
      DailyRow(ReadResult(es, None).value.data[k], PageDate(es, today).value).Err?
    ensures DailyResult(es, today, floatText) == Err(KeyError)
  {
    DailyResultOf(es, today, floatText);
    RatingsDataset([], floatText);
  }

  // -------------------------------------------------------- symbol ratings

  /** `\w`, over ASCII: letters, digits and the underscore. */
  predicate IsWordChar(c: char) {
    c == '_' || ('0' <= c <= '9') || ('a' <= c <= 'z') || ('A' <= c <= 'Z')
  }

  /** `re.match('/stocks/(\w+)', href).groups()[0]`: the word right after
      "/stocks/". A link without target is a TypeError (the pattern is
      applied to None); a target that does not match leaves None, and asking
      it for its groups is an AttributeError. */
  function ExchangeOf(href: Option<string>): (r: Result<string>)
    ensures href.None? ==> r == Err(TypeError)
    ensures href.Some? && r.Err? ==> r.error == AttributeError
    ensures r.Ok? <==>
      (href.Some? && StartsWith(href.value, STOCKS)
       && |href.value| > |STOCKS| && IsWordChar(href.value[|STOCKS|]))
    ensures r.Ok? ==> StartsWith(href.value, STOCKS + r.value)
    ensures r.Ok? ==> forall k :: 0 <= k < |r.value| ==> IsWordChar(r.value[k])
    ensures r.Ok? ==> |href.value| == |STOCKS| + |r.value| || !IsWordChar(href.value[|STOCKS| + |r.value|])
  {
    match href
    case None => Err(TypeError)
    case Some(h) =>
      if !StartsWith(h, STOCKS) then Err(AttributeError)
      else
        var tail := h[|STOCKS|..];
        var n := LeadingRun(tail, IsWordChar);
        if n == 0 then Err(AttributeError)
        else
          assert h[..|STOCKS| + n] == STOCKS + tail[..n];
          Ok(tail[..n])
  }

  /** The word after "/stocks/" is the exchange, whatever follows a
      non-word character. */
  lemma ExchangeOfWord(word: string, rest: string)
    requires word != [] && forall k :: 0 <= k < |word| ==> IsWordChar(word[k])
    requires rest == [] || !IsWordChar(rest[0])
    ensures ExchangeOf(Some(STOCKS + word + rest)) == Ok(word)
  {
    var h := STOCKS + word + rest;
    assert h[..|STOCKS|] == STOCKS;
    var tail := h[|STOCKS|..];
    assert tail == word + rest;
    var n := LeadingRun(tail, IsWordChar);
    assert forall k :: 0 <= k < |word| ==> tail[k] == word[k];
    if rest != [] {
      assert tail[|word|] == rest[0];
    }
    assert n == |word|;
    assert tail[..n] == word;
  }

  /** What `getSymbolRatingsTable` returns: `anchor` is the `<a>` of the
      `<li id="liAnalystRatings">` on the symbol's main page (None when either
      is missing: an AttributeError), `es` the page its target leads to. The
      table after the "Ratings History" heading is read and every row that
      parses becomes a rating of `symbol` on the linked exchange. */
  function SymbolResult(symbol: string, anchor: Option<Link>, es: seq<Element>, floatText: real -> string): (r: Result<Frame>)
    ensures anchor.None? ==> r == Err(AttributeError)
    ensures anchor.Some? && anchor.value.href.None? ==> r == Err(TypeError)
    ensures r.Err? ==> r.error == AttributeError || r.error == TypeError || r.error == ValueError || r.error == KeyError
  {
    match anchor
    case None => Err(AttributeError)
    case Some(a) =>
      var exchange :- ExchangeOf(a.href);
      var table :- ReadResult(es, Some(HISTORY));
      BuildDataset(RatingRecords(HistoryParsed(table.data, symbol, exchange)), floatText)
  }

  /** The rows of the history table that parse, as ratings of `symbol` on
      `exchange`. */
  function HistoryParsed(data: seq<seq<Cell>>, symbol: string, exchange: string): (ratings: seq<Rating>)
    ensures |ratings| <= |data|
    ensures forall r :: r in ratings ==> r.symbol == symbol && r.exchange == exchange
  {
    HistoryShareSymbol(data, symbol, exchange);
    Survivors(data, row => HistoryRow(row, symbol, exchange))
  }

  /** `getSymbolRatingsTable` on the parsed pages. */
  method SymbolRatings(symbol: string, anchor: Option<Link>, history: Page, floatText: real -> string) returns (r: Result<Frame>)
    modifies history
    ensures r == SymbolResult(symbol, anchor, old(history.elements), floatText)
    ensures anchor.Some? && ExchangeOf(anchor.value.href).Ok? ==>
      history.elements == AfterRead(old(history.elements), Some(HISTORY))
    ensures !(anchor.Some? && ExchangeOf(anchor.value.href).Ok?) ==> history.elements == old(history.elements)
  {
    if anchor.None? {
      return Err(AttributeError);
    }
    var exchange := ExchangeOf(anchor.value.href);
    if exchange.Err? {
      return Err(exchange.error);
    }
    var table := history.ReadTable(Some(HISTORY));
    if table.Err? {
      return Err(table.error);
    }
    var ratings := KeepParsed(table.value.data, row => HistoryRow(row, symbol, exchange.value));
    assert ratings == HistoryParsed(table.value.data, symbol, exchange.value);
    r := BuildDataset(RatingRecords(ratings), floatText);
  }

  /** The history frame: the rating columns, one row per parsed table row,
      each of the requested symbol and of the exchange the link names. */
  lemma SymbolFrame(symbol: string, anchor: Option<Link>, es: seq<Element>, floatText: real -> string)
    requires SymbolResult(symbol, anchor, es, floatText).Ok?
    ensures anchor.Some? && ExchangeOf(anchor.value.href).Ok? && ReadResult(es, Some(HISTORY)).Ok?
    ensures var f := SymbolResult(symbol, anchor, es, floatText).value;
      var exchange := ExchangeOf(anchor.value.href).value;
      && f.columns == RatingColumns()
      && 1 <= |f.rows| <= |ReadResult(es, Some(HISTORY)).value.data|
      && forall i :: 0 <= i < |f.rows| ==>
           && SYMBOL in f.rows[i] && f.rows[i][SYMBOL] == Str(symbol)
           && "exchange" in f.rows[i] && f.rows[i]["exchange"] == Str(exchange)
  {
    var exchange := ExchangeOf(anchor.value.href).value;
    var data := ReadResult(es, Some(HISTORY)).value.data;
    var ratings := HistoryParsed(data, symbol, exchange);
    assert SymbolResult(symbol, anchor, es, floatText) == BuildDataset(RatingRecords(ratings), floatText);
    FrameOfParsed(ratings, floatText, |data|);
    SymbolsOfParsed(ratings, floatText, symbol, exchange);
  }

  lemma SymbolsOfParsed(ratings: seq<Rating>, floatText: real -> string, symbol: string, exchange: string)
    requires forall r :: r in ratings ==> r.symbol == symbol && r.exchange == exchange
    requires BuildDataset(RatingRecords(ratings), floatText).Ok?
    ensures var f := BuildDataset(RatingRecords(ratings), floatText).value;
      forall i :: 0 <= i < |f.rows| ==>
        && SYMBOL in f.rows[i] && f.rows[i][SYMBOL] == Str(symbol)
        && "exchange" in f.rows[i] && f.rows[i]["exchange"] == Str(exchange)
  {
    var f := BuildDataset(RatingRecords(ratings), floatText).value;
    RatingsFrameFields(ratings, floatText, f);
    forall i | 0 <= i < |f.rows|
      ensures SYMBOL in f.rows[i] && f.rows[i][SYMBOL] == Str(symbol)
      ensures "exchange" in f.rows[i] && f.rows[i]["exchange"] == Str(exchange)
    {
      assert ratings[i] in ratings;
    }
  }
}
